=== FILE: README.md ===
# EduMate back-end core in Dafny

A model of the EduMate e-learning back end: the quiz flow, the account
lifecycle, the progress records and the statistics read from them, and two
pure helpers from the front end.

- **Quiz flow.** Answers are graded by exact string match. The student's
  quiz record is upserted and keeps the best score. Then the two badge rules
  run: perfect score and topic completion.
- **Accounts.** Registration defaults, login gating by status, and
  approve / reject / reactivate / delete under an actor-role × target-role
  matrix. Students are linked to parents and teachers by code or by an
  admin.
- **The rest of the store.** Lesson completion, the delete cascades, the
  `x || old` update rules of topics, lessons, quizzes and rewards, reward
  listing, and the student dashboard (counts, mean score, topics learned,
  recent activity).
- **Front-end helpers.** The Fisher–Yates `shuffleArray` of the quiz page,
  and `normalizeLineBreaks` of the chat widget.

## How the store is modelled

The store is a value. `Records.Db` holds the topics, lessons, quizzes,
progress records, rewards and grants; `Accounts.Users` holds the accounts.
Each collection is a sequence in insertion order. The query operations map
as follows:

| store operation | model |
|---|---|
| `findOne` / `findById` | `FindFirst`, the first match |
| `find` | `Filter` |
| `countDocuments` | `Count` |
| `deleteOne` | `RemoveAt` |
| `deleteMany` | `RemoveWhere` |
| `sort({ k: -1 })` | `SortDescBy`, an insertion sort |

Each controller is a pure function from the store to
`Result<(reply, new store)>`.

- `Err` carries the status the controller sets: 400, 401, 403 or 404.
- `Internal` stands for an error raised below the controller: a failed
  schema validation, a duplicate key or a null dereference.
  Its status is picked by the error middleware, which is not part of this
  model.
- Each guarded route is the controller composed with the guard of its
  route file, through `Auth.Authorize`. A route behind `protect` alone has
  no guard, so its handler meets a null `req.user` on its own terms.
- Ids are strings. Every comparison the code makes goes through
  `toString()` or ObjectId equality.

Foreign calls are parameters:

- `verify` stands for `jwt.verify`.
- `hash` and `matches` stand for bcrypt.
- `gen` is the student-code generator.
- `now` is the clock.
- `draws` is the stream of `Math.random()` values.

Scores are exact reals. JavaScript's NaN, which appears when a score is
missing, is `None`.

Where the code and the documentation differ, the model follows the code:

- A quiz stores no author: the schema has no such path.
- A progress record has no `timeSpent`: the schema has no such path, so
  it is never persisted.
- The lesson-completion lookup matches a record of either kind, while the
  status query looks for lesson records only.

## Model

| member | source | states |
|---|---|---|
| Common.OrElse | backend/controllers/topicController.js:53-55 | `x \|\| old` on a string: an absent or empty incoming value keeps the stored one, anything else replaces it |
| Common.OrKeep | backend/controllers/rewardController.js:55 | `x \|\| old` on an object or array: only an absent value keeps the stored one, since `{}` and `[]` are truthy |
| Collections.FindFirst | backend/controllers/quizController.js:142-148 | `findOne` gives the first match, and `None` exactly when nothing matches |
| Collections.Filter | backend/controllers/adminController.js:7-10 | `find` keeps exactly the matching documents, in order |
| Collections.FindSortedDesc | backend/controllers/rewardController.js:85-87 | `find(..).sort({k: -1})` is sorted newest first and holds exactly the matches, each as often as stored |
| Collections.RemoveAt | backend/controllers/adminController.js:175 | `deleteOne` drops exactly the one document and keeps the others in order |
| Collections.RemoveWhere | backend/controllers/lessonController.js:61 | `deleteMany` leaves no match and keeps every non-match |
| Collections.SortDescBy | backend/controllers/dashboardController.js:16 | `sort({ k: -1 })` is ordered newest first and a permutation of its input |
| Collections.FilterFilter | backend/controllers/dashboardController.js:10-19 | narrowing the student's records to one kind is the same as one query on both conditions |
| Collections.CountPermutation | backend/controllers/dashboardController.js:16-21 | a count does not depend on the order the query returned |
| Collections.FilterPermutation | backend/controllers/dashboardController.js:16-19 | filtering a reordered list gives the same matches, reordered |
| Accounts.ValidUpdate | backend/models/userModel.js:9-51 | replacing an account without touching its id, handles, role or code keeps every unique index |
| Accounts.ValidAppend | backend/models/userModel.js:9-51 | adding an account whose id, handles and code are fresh keeps every unique index |
| Accounts.ValidRemoveAt | backend/models/userModel.js:9-51 | removing an account keeps every unique index |
| Accounts.Lower | backend/models/userModel.js:13 | the `lowercase` setter, for ASCII letters: A–Z become a–z and every other character is kept (see Left out) |
| Accounts.TrimStart | backend/models/userModel.js:9-22 | the `trim` setter drops exactly the leading blanks: what remains is a suffix that starts with no blank |
| Accounts.TrimEnd | backend/models/userModel.js:9-22 | the `trim` setter drops exactly the trailing blanks: what remains is a prefix that ends with no blank |
| Accounts.TrimIdempotent | backend/models/lessonModel.js:5-9 | a trimmed value has no blank at either end, and trimming again changes nothing |
| Auth.SecondField | backend/middleware/authMiddleware.js:14 | `split(' ')[1]` is undefined exactly when there is no space; otherwise it is the text from just after the first space up to the next space or the end |
| Auth.Protect | backend/middleware/authMiddleware.js:5-33 | 401 "no token" exactly without a `Bearer` header; 401 "token failed" exactly when the token is absent or verification throws; otherwise `req.user` is the account with the token's id, or null |
| Auth.CheckMatchesAdmits | backend/middleware/authMiddleware.js:35-80 | each guard passes an account exactly when its role is in the guard's set; a refused account gets 403; a null user gets 403, except under `parentOrTeacher`, which dereferences it |
| Auth.Authorize | backend/middleware/authMiddleware.js:5-80 | `protect` plus a guard: a 401 exactly when `protect` fails; an admitted account always gets through; an account of another role gets 403; whoever gets through is admitted |
| UserController.Register | backend/controllers/userController.js:10-51 | 400 exactly when the lowercased email or username is taken; otherwise a validation failure exactly when the name or password is empty or a handle is empty once lowercased and trimmed; otherwise one account is appended with canonical handles. A student is active with the given code; any other role, admin included, is pending with no code, and a body without a role stores the schema default, a pending student. A session is returned exactly for an active account |
| UserController.RegisterKeepsValid | backend/controllers/userController.js:13-33 | a registration keeps ids, handles and codes unique |
| UserController.GenerateStudentCode | backend/controllers/userController.js:24-28 | the retry loop returns the first drawn code no account holds; every earlier draw was taken |
| UserController.RegisterUser | backend/controllers/userController.js:10-51 | registration end to end: 400 exactly for a taken handle, a validation failure exactly for an empty required field, and success exactly otherwise; a student gets a fresh code and a session; other roles are pending without a code, a missing role stored as student; a refused registration leaves the store unchanged |
| UserController.LoginUser | backend/controllers/userController.js:56-85 | an unknown login or a wrong password gives "invalid credentials" before any status check. Pending and rejected accounts get their own 401s. Only an active account logs in |
| UserController.RegisterThenLogin | backend/controllers/userController.js:22-80 | right after registering, a student logs in and any other role is told to wait for approval |
| UserController.LinkStudent | backend/controllers/userController.js:93-103 | 404 exactly for an unknown code; a caller that no longer resolves fails; otherwise 400 exactly when the student is already linked and success exactly when not, the student's id then appended once to the caller's `children`, and the indexes stay valid |
| UserController.LinkStudentOnceOnly | backend/controllers/userController.js:96-100 | the linked account is a student, `children` grows by one, and repeating the link gives 400 |
| UserController.LinkStudentRoute | backend/routes/userRoutes.js:15 | 401 exactly when `protect` fails; an authenticated parent, teacher or admin gets `linkStudent`'s answer for their own id; a student gets 403 |
| AdminController.PermitsIsMatrixBehindGuard | backend/controllers/adminController.js:66-75 | for actors `adminOrTeacher` admits, the controller's two checks are exactly the matrix: admins decide on teachers and parents, teachers on parents |
| AdminController.ApproveUser | backend/controllers/adminController.js:62-85 | 404 for a missing id, 403 outside the matrix; otherwise only the target changes, to active with `approvedBy` the actor, whatever its prior status |
| AdminController.RejectUser | backend/controllers/adminController.js:90-113 | 404 for a missing id, 403 outside the matrix; otherwise only the target changes, to rejected with `approvedBy` kept, whatever its prior status |
| AdminController.SetUserActive | backend/controllers/adminController.js:144-162 | 404 exactly unless the target exists and is a teacher or parent; 400 exactly when it is not rejected; success exactly for a rejected teacher or parent, which becomes active, approved by the actor |
| AdminController.DeleteUser | backend/controllers/adminController.js:167-178 | 404 exactly for a missing or admin target; success exactly otherwise, with exactly that account removed |
| AdminController.DeleteRemovesExactlyTarget | backend/controllers/adminController.js:170-175 | after a delete the remaining accounts are exactly the others, unchanged (so no other `children` list changes), and the indexes stay valid |
| AdminController.LinkStudentAsAdmin | backend/controllers/adminController.js:31-57 | 404 exactly when either account is missing; 403 exactly when the target is not a teacher or parent; 400 exactly when already linked; success exactly otherwise, with the id appended once |
| AdminController.AdminLinkAcceptsNonStudent | backend/controllers/adminController.js:42-52 | no role check on the second account: a teacher can be linked as a parent's child |
| AdminController.PendingOf | backend/controllers/adminController.js:7-18 | the pending list holds exactly the pending accounts of the role |
| AdminController.HistoryOf | backend/controllers/adminController.js:118-139 | the history list holds exactly the active or rejected accounts of the role |
| AdminController.StudentsOf | backend/controllers/adminController.js:23-26 | the student list holds exactly the student accounts |
| AdminController.ListingsPartition | backend/controllers/adminController.js:118-139 | pending and history never overlap, and together cover every account of the role |
| AdminController.ListRoute | backend/routes/adminRoutes.js:18-26 | 401 exactly when `protect` fails; success exactly for a caller the route's guard admits (admin for the teacher and student lists, admin or teacher for the parent lists), who gets that listing; each list holds only its role and status |
| AdminController.ApproveRoute | backend/routes/adminRoutes.js:29 | approval through the route succeeds exactly for an authenticated actor allowed by the matrix on an existing target |
| AdminController.RejectRoute | backend/routes/adminRoutes.js:30 | rejection through the route succeeds exactly for an authenticated actor allowed by the matrix on an existing target |
| AdminController.SetActiveRoute | backend/routes/adminRoutes.js:21 | 401 exactly when `protect` fails; an admin gets `setUserActive`'s answer, so only a rejected account comes back; any other role gets 403 |
| AdminController.DeleteRoute | backend/routes/adminRoutes.js:22 | 401 exactly when `protect` fails; an admin gets `deleteUser`'s answer, a delete removing one account; any other role gets 403 |
| AdminController.StudentStatusIsFixed | backend/controllers/adminController.js:62-162 | no route changes a student account's status |
| AdminController.ApproveIdempotent | backend/controllers/adminController.js:77-79 | approving again by the same actor changes nothing more |
| QuizController.Details | backend/controllers/quizController.js:134-139 | one entry per question, in quiz order: its text, whether the answer is correct, and the answer or 'Tidak dijawab' when it is missing or empty |
| QuizController.Grade | backend/controllers/quizController.js:133-139 | the grading loop counts exactly the questions answered with `correctAnswer` and builds the detail list |
| QuizController.CorrectCountBounds | backend/controllers/quizController.js:133-137 | the correct count is at most the question count, equals it exactly when every answer is right, and a missing answer keeps it below |
| QuizController.Percent | backend/controllers/quizController.js:140 | for a non-empty quiz the score lies in [0, 100] and is 100 exactly when every question is correct |
| QuizController.Max | backend/controllers/quizController.js:151 | `Math.max` is one of its arguments and at least both |
| QuizController.RecordAttempt | backend/controllers/quizController.js:142-173 | with no record for (student, quiz, topic), exactly one quiz record with this score is appended. Otherwise that record is updated in place: best of stored-or-0 and new score, answers always overwritten |
| QuizController.RecordAttemptTouchesOnlyKey | backend/controllers/quizController.js:142-161 | the upsert changes no record with another key |
| QuizController.RecordAttemptKeepsOneRecord | backend/controllers/quizController.js:142-173 | after the upsert exactly one record has the key, holding at least the new score |
| QuizController.Earned | backend/controllers/quizController.js:56 | one grant per earned reward, for this student, in order |
| QuizController.GrantFirst | backend/controllers/quizController.js:53-58 | a rule grants the first matching reward exactly when one exists that the student does not hold, and keeps grants unique |
| QuizController.HasGrantEarned | backend/models/userRewardModel.js:24 | after the new grants, the student holds a reward exactly when it was held before or just earned |
| QuizController.PerfectRule | backend/controllers/quizController.js:52-59 | the perfect-score reward is granted exactly when the score is 100, such a reward exists and it is not held; the reward granted is the first perfect-score reward in store order, the one `findOne` returns |
| QuizController.TopicRule | backend/controllers/quizController.js:60-75 | the topic reward is granted exactly when the topic has quizzes, the student's quiz-record count equals that number, a matching reward exists and it is not held; the reward granted is the first reward for that topic in store order, the one `findOne` returns |
| QuizController.TopicRuleAfterPerfect | backend/controllers/quizController.js:52-75 | the perfect-score grant never changes whether the topic rule fires, when reward ids are distinct |
| QuizController.BadgeRulesCombine | backend/controllers/quizController.js:50-77 | the two rules' grants add up to one list of new grants, none previously held |
| QuizController.BadgeRulesFire | backend/controllers/quizController.js:52-75 | the combined rewards include a perfect-score reward exactly when that rule fires, and a topic reward only when the topic rule fires and always when it fires, given distinct reward ids |
| QuizController.CheckAndAwardBadges | backend/controllers/quizController.js:50-77 | at most two new rewards, none previously held, and each is the first perfect-score reward or the first reward for the topic in store order. The perfect-score one exactly when its rule fires; the topic one exactly when its rule fires, given distinct reward ids. Perfect score comes first. Grants stay unique |
| QuizController.SubmitQuiz | backend/controllers/quizController.js:127-177 | 404 exactly for an unknown quiz; an empty quiz (NaN score) or a missing answers object fails; success exactly otherwise, the reply carrying the fresh score, totals and new rewards, and the store getting the upserted record and new grants |
| QuizController.SubmitKeepsValid | backend/controllers/quizController.js:127-177 | a submission keeps grants, reward ids and names, and attempt keys unique, and every score in [0, 100] |
| QuizController.PerfectNeedsFreshPerfect | backend/controllers/quizController.js:175 | badges see the fresh score: an attempt below 100 earns no perfect-score reward, whatever the stored best |
| QuizController.BadgesNeverRepeat | backend/controllers/quizController.js:54-55 | running the rules again on their own result earns none of the same rewards |
| QuizController.ViewRoundTrip | backend/controllers/quizController.js:103 | the full view gives back the stored quiz |
| QuizController.GetQuizById | backend/controllers/quizController.js:90-108 | 404 exactly for an unknown id. A student gets every question without `correctAnswer`, all else kept; other roles get the stored quiz unchanged |
| QuizController.UpdateQuiz | backend/controllers/quizController.js:21-34 | 404 exactly for an unknown id; each falsy field keeps its old value; a found quiz is saved exactly when the edited quiz is valid, so a valid quiz given valid questions always updates; only that quiz changes |
| QuizController.UpdateQuizEmptyIsIdentity | backend/controllers/quizController.js:25-28 | an update that sends nothing leaves a valid quiz as it was |
| QuizController.UpdateQuizIdempotent | backend/controllers/quizController.js:21-34 | the same update twice equals it once |
| QuizController.DeleteQuiz | backend/controllers/quizController.js:39-48 | 404 exactly for an unknown id; otherwise only the quiz is removed, and its progress records stay |
| QuizController.DeleteQuizOrphansAttempts | backend/controllers/quizController.js:39-48 | a delete lowers the topic's quiz count by one and leaves the student's quiz-record count for the topic unchanged |
| QuizController.RecordAttemptKeepsTopicCount | backend/controllers/quizController.js:142-173 | the upsert never lowers the student's record count in a topic |
| QuizController.OrphanBlocksTopicReward | backend/controllers/quizController.js:68 | once a topic holds more of the student's records than quizzes, no later submission in it earns the topic reward, because the rule needs equality |
| QuizController.RetopicSplitsAttempts | backend/controllers/quizController.js:142-148 | the upsert key includes the topic: after a quiz moves topic, a new attempt creates a second record instead of updating the first |
| QuizController.RecordAttemptSplits | backend/controllers/quizController.js:142-161 | an attempt filed under a quiz's old topic survives an upsert under the new topic, next to the new key's record |
| QuizController.SubmitRoute | backend/routes/quizRoutes.js:32-33 | 401 exactly when `protect` fails; a student gets `submitQuiz`'s answer for their own id; other roles get 403 |
| QuizController.GetQuizRoute | backend/controllers/quizController.js:90-108 | behind `protect` alone: 401 exactly when `protect` fails; every authenticated account gets `getQuizById` for its role; a null `req.user` gets 404 for an unknown id and fails only on a found quiz, where the role is read |
| QuizController.UpdateQuizRoute | backend/routes/quizRoutes.js:25 | 401 exactly when `protect` fails; admins and teachers get `updateQuiz`'s answer; students and parents get 403 |
| QuizController.DeleteQuizRoute | backend/routes/quizRoutes.js:26 | 401 exactly when `protect` fails; admins and teachers get `deleteQuiz`'s answer; students and parents get 403 |
| LessonController.MarkLessonAsComplete | backend/controllers/lessonController.js:72-93 | 404 exactly for an unknown lesson. With any record for (student, lesson) nothing is created. Otherwise exactly one lesson record is appended, with the lesson's topic and no score |
| LessonController.CheckLessonCompletionStatus | backend/controllers/lessonController.js:98-112 | 404 exactly for an unknown lesson; otherwise true exactly when a lesson-kind record exists for (student, lesson) |
| LessonController.MarkTwiceIsMarkOnce | backend/controllers/lessonController.js:79-82 | a second completion creates nothing and leaves the store as the first left it |
| LessonController.MarkThenStatus | backend/controllers/lessonController.js:79-111 | after a completion the status reads true, when no quiz record is filed under the lesson's id |
| LessonController.MarkAndStatusCanDisagree | backend/controllers/lessonController.js:79-109 | a quiz record under the lesson's id blocks a completion while the status stays false |
| LessonController.DeleteLesson | backend/controllers/lessonController.js:57-67 | 404 exactly for an unknown lesson; otherwise the lesson goes, with every progress record whose item is that lesson |
| LessonController.DeleteLessonClearsCompletion | backend/controllers/lessonController.js:61 | after a delete nobody holds a record of that lesson |
| LessonController.EditLessonStable | backend/controllers/lessonController.js:43-45 | applying the same edit to its own result changes nothing |
| LessonController.UpdateLesson | backend/controllers/lessonController.js:39-52 | 404 exactly for an unknown lesson; each falsy field keeps its old value; the title is trimmed; a found lesson is saved exactly when the edited lesson is valid, so a valid, trimmed lesson with no blank title sent always updates |
| LessonController.BlankTitleIsRefused | backend/controllers/lessonController.js:43-46 | a title of blanks is truthy, replaces the old one, trims to empty and fails validation |
| LessonController.UpdateLessonEmptyIsIdentity | backend/controllers/lessonController.js:43-46 | an update that sends nothing leaves a saved lesson as it was |
| LessonController.UpdateLessonIdempotent | backend/controllers/lessonController.js:39-52 | the same update twice equals it once |
| LessonController.MarkCompleteRoute | backend/routes/lessonRoutes.js:26-27 | 401 exactly when `protect` fails; a student gets `markLessonAsComplete`'s answer for their own id; other roles get 403 |
| LessonController.StatusRoute | backend/routes/lessonRoutes.js:29-30 | 401 exactly when `protect` fails; a student gets `checkLessonCompletionStatus`'s answer for their own id; other roles get 403 |
| LessonController.DeleteLessonRoute | backend/routes/lessonRoutes.js:24 | 401 exactly when `protect` fails; admins and teachers get `deleteLesson`'s cascade; students and parents get 403 |
| LessonController.UpdateLessonRoute | backend/routes/lessonRoutes.js:23 | 401 exactly when `protect` fails; admins and teachers get `updateLesson`'s answer; students and parents get 403 |
| TopicController.GetTopicById | backend/controllers/topicController.js:16-25 | 404 exactly when no topic has the id; otherwise that topic |
| TopicController.CreateTopic | backend/controllers/topicController.js:31-42 | a missing or empty field fails validation; otherwise the three fields are stored exactly as given |
| TopicController.CreateThenGet | backend/controllers/topicController.js:31-42 | reading a topic just created returns exactly the fields sent |
| TopicController.EditTopic | backend/controllers/topicController.js:53-55 | an edit keeps the id and never makes a valid topic invalid |
| TopicController.UpdateTopic | backend/controllers/topicController.js:47-63 | 404 exactly for an unknown topic; each falsy field keeps its old value; a valid stored topic always updates |
| TopicController.UpdateTopicIdempotent | backend/controllers/topicController.js:47-63 | the same update twice equals it once |
| TopicController.DeleteTopic | backend/controllers/topicController.js:68-80 | 404 exactly for an unknown topic; otherwise it goes with exactly its quizzes, and lessons, progress, rewards and grants stay |
| TopicController.DeleteTopicEndsCompletion | backend/controllers/topicController.js:73 | after a delete the topic has no quizzes, so its reward can no longer be earned, while its lessons remain |
| RewardController.GetRewardById | backend/controllers/rewardController.js:16-24 | 404 exactly when no reward has the id; otherwise that reward |
| RewardController.CreateReward | backend/controllers/rewardController.js:30-42 | a missing field, missing criteria or a taken name fails; otherwise `criteria` is stored as given, and ids and names stay unique |
| RewardController.EditReward | backend/controllers/rewardController.js:52-55 | `criteria` is replaced whenever sent and kept only when absent |
| RewardController.UpdateReward | backend/controllers/rewardController.js:47-63 | 404 exactly for an unknown reward; each falsy string keeps its old value; a found reward is saved exactly when the edit is valid and its name is free, so a valid reward under unique names, sent no name or a free one, always updates |
| RewardController.UpdateRewardKeepsIndexes | backend/models/rewardModel.js:5-9 | an update keeps reward ids and names distinct |
| RewardController.DeleteReward | backend/controllers/rewardController.js:68-78 | 404 exactly for an unknown reward; otherwise only the reward goes |
| RewardController.DeleteRewardLeavesGrants | backend/controllers/rewardController.js:72 | grants of a deleted reward stay and point at no reward |
| RewardController.GetMyRewards | backend/controllers/rewardController.js:84-90 | exactly the caller's grants, each as often as stored, newest `dateEarned` first |
| RewardController.MyRewardsRoute | backend/routes/rewardRoutes.js:15 | 401 exactly when `protect` fails; a student gets exactly `getMyRewards` of their own id, and sees only their own grants; other roles get 403 |
| DashboardController.ScoreSum | backend/controllers/dashboardController.js:24 | the running total is NaN exactly when some record has no score |
| DashboardController.ScoreSumPermutation | backend/controllers/dashboardController.js:24 | the total does not depend on record order |
| DashboardController.ScoreSumBounds | backend/controllers/dashboardController.js:24 | percentages sum to at most 100 per record |
| DashboardController.Mean | backend/controllers/dashboardController.js:22-25 | 0 with no quiz records; NaN exactly when a quiz record lacks a score |
| DashboardController.MeanBounds | backend/controllers/dashboardController.js:22-25 | the mean of percentages is a percentage |
| DashboardController.AllProgress | backend/controllers/dashboardController.js:10-16 | exactly the student's records, newest `createdAt` first |
| DashboardController.TopicsOf | backend/controllers/dashboardController.js:28-39 | the topic ids of records of one kind whose topic still exists |
| DashboardController.TopicsLearnedIff | backend/controllers/dashboardController.js:28-42 | a topic counts exactly when it exists and the student has both a lesson record and a quiz record in it |
| DashboardController.Recent | backend/controllers/dashboardController.js:76 | at most 5 records, a prefix of the sorted list, and none left out is newer than one kept |
| DashboardController.KindsPartition | backend/controllers/dashboardController.js:80 | lesson and quiz records add up to all records |
| DashboardController.StatsFor | backend/controllers/dashboardController.js:18-82 | totalQuizzes and totalLessons are the student's record counts of each kind; averageScore is the mean over the student's quiz records in store order; topicsLearned is the size of the learned set; quiz and lesson totals add up to all of the student's records |
| DashboardController.RecentFor | backend/controllers/dashboardController.js:10-76 | at most 5 of the student's records, newest first: five of them, or all when there are fewer, and none left out is newer than one kept |
| DashboardController.GetDashboardData | backend/controllers/dashboardController.js:8-85 | quiz and lesson totals add up to the student's record count; the recent list holds min(5, that count) of the student's own records; the average is the mean of the quiz records, and it is NaN only when there is at least one quiz record |
| DashboardController.AverageInRange | backend/controllers/dashboardController.js:22-25 | with every quiz score in [0, 100], the average is a number in [0, 100] |
| DashboardController.ParentTeacherDashboard | backend/controllers/dashboardController.js:98-109 | 403 exactly when the student is not among the caller's children; otherwise that student's dashboard |
| DashboardController.StudentRoute | backend/routes/dashboardRoutes.js:10 | exactly an authenticated student gets a dashboard, their own |
| DashboardController.ParentTeacherRoute | backend/routes/dashboardRoutes.js:11 | 401 exactly when `protect` fails; success exactly for an authenticated parent, teacher or admin viewing one of their children, who gets that child's dashboard; a student gets 403 |
| DashboardController.LinkOpensDashboard | backend/controllers/dashboardController.js:102-105 | after a parent or teacher links a student by code, that student's dashboard is open to them |
| QuizPage.PickIndex | frontend/src/pages/QuizPage.jsx:15 | `Math.floor(Math.random() * currentIndex)` is a slot below `currentIndex` |
| QuizPage.SwapPermutes | frontend/src/pages/QuizPage.jsx:19-20 | the destructuring swap keeps every value, as often as before |
| QuizPage.SwapMoves | frontend/src/pages/QuizPage.jsx:19-20 | the destructuring swap exchanges the two slots and leaves every other slot alone |
| QuizPage.RunPermutes | frontend/src/pages/QuizPage.jsx:13-21 | the loop permutes the array |
| QuizPage.RunKeepsAbove | frontend/src/pages/QuizPage.jsx:13-21 | the loop never touches a slot at or above the `currentIndex` it starts from |
| QuizPage.Shuffled | frontend/src/pages/QuizPage.jsx:9-24 | the shuffle is a permutation of its input |
| QuizPage.ShortArraysStay | frontend/src/pages/QuizPage.jsx:13-21 | an array of at most one element is left as it is |
| QuizPage.ShuffleArray | frontend/src/pages/QuizPage.jsx:9-24 | the array is shuffled in place and the same array is returned |
| QuizPage.ShuffleOptions | frontend/src/pages/QuizPage.jsx:43-46 | a question comes back with the same fields and a permutation of its options, from a copy |
| QuizPage.ShuffleQuestions | frontend/src/pages/QuizPage.jsx:40-47 | every question in quiz order, each with only its options reordered |
| QuizPage.TimeSpent | frontend/src/pages/QuizPage.jsx:69 | at least 1, and otherwise the elapsed time rounded to whole seconds |
| Chatbot.SkipBreaks | frontend/src/components/chatbot/Chatbot.jsx:10 | what follows a run of line feeds does not start with one |
| Chatbot.NormalizeLineBreaks | frontend/src/components/chatbot/Chatbot.jsx:10 | never longer than the input, and starts with a line feed exactly when the input does |
| Chatbot.NormalizeMatchesReference | frontend/src/components/chatbot/Chatbot.jsx:10 | equals the character-by-character rule: drop a line feed exactly when it follows one |
| Chatbot.NormalizeNoDoubleBreak | frontend/src/components/chatbot/Chatbot.jsx:10 | the output never has two adjacent line feeds |
| Chatbot.NormalizeKeepsClean | frontend/src/components/chatbot/Chatbot.jsx:10 | a text without a double line feed comes back unchanged |
| Chatbot.NormalizeIdempotent | frontend/src/components/chatbot/Chatbot.jsx:10 | normalising twice is normalising once |
| Chatbot.NormalizeKeepsText | frontend/src/components/chatbot/Chatbot.jsx:10 | with every line feed removed, input and output are the same text |

## Left out

- `createQuiz`, `getQuizzesByTopic`, `getQuizForReview`, `createLesson`, `getLessonsByTopic`, `getLessonById`, `getTopics`, `getAllRewards`, `getUserProfile`: plain inserts and reads with no rule beyond schema validation.
- `chartData` of the dashboard, the aggregation pipeline at dashboardController.js:45-73: a MongoDB `$group`/`$lookup` query.
- `populate` and `select` projections: they shape the JSON reply and change no rule. The one exception is the null a deleted topic becomes, which `TopicsOf` models.
- DashboardController.GetDashboardData: `toFixed(2)` is not modelled; `averageScore` is the exact number, or `None` for NaN.
- Floating point: scores, the mean and `Math.random() * currentIndex` use exact reals. IEEE rounding is not modelled.
- JWT signing and verification, and bcrypt hashing and comparison: foreign crypto calls, taken as the parameters `verify`, `hash` and `matches`.
- The base-36 student-code generator: taken as an oracle `gen`; only the retry-until-free loop is modelled.
- The clock and `Math.random()`: parameters (`now`, `draws`).
- Concurrent requests: every operation is sequential, so the read-then-write races in `submitQuiz` and `checkAndAwardBadges` are not modelled.
- The guard composition of the topic CRUD routes and of the reward routes other than `GET /api/rewards`: the controllers are modelled, but not their route-level guards.
- The chatbot proxy to the external chat API, `server.js`, the React components, the `localStorage` cache and the cover-image URLs of the topic pages.
- Subdocument ids of questions are taken as given. Mongoose generates them.
- The error middleware is not part of this model. `Internal` stands for whatever status it sends.
- UserController.Register: the `role` field is an `Option<Role>`: absent or one of the four roles. A body whose role lies outside the schema's enum (`"superuser"`, `""`) fails validation in `User.create`; the model has no input for that path.
- UserController.RegisterUser: the same gap on `role` as UserController.Register.
- Reward criteria: `criteria` is an open object in the reward schema; the model takes it as a map from strings to strings, so non-string values are not modelled.
- Accounts.Lower: `toLowerCase` maps every Unicode letter ('É' to 'é'); the model maps ASCII letters only, so two handles that differ only in a non-ASCII letter's case are distinct here.
- Missing body fields: `email.toLowerCase()`, `username.toLowerCase()` and `login.toLowerCase()` (userController.js:13 and 58) throw on a field left out of the body, and so does `matchPassword(undefined)`. Strings are never undefined here, so these failures are not modelled.
- Malformed ids: `Id` is a string, so a `findById` with an id that is not an ObjectId finds nothing and answers 404, where Mongoose raises a cast error.
- UserController.LinkStudent: keeps the stored password hash on save, by the reading of the pre-save hook given below.
- AdminController.ApproveUser: keeps the stored password hash on save, by the same reading.
- AdminController.RejectUser: keeps the stored password hash on save, by the same reading.
- AdminController.SetUserActive: keeps the stored password hash on save, by the same reading.
- AdminController.LinkStudentAsAdmin: keeps the stored password hash on save, by the same reading.
- The pre-save hook (userModel.js:56-62) calls `next()` for an unchanged password but does not return. It then goes on to re-hash the stored hash. The model reads `next()` as letting the save go ahead, so the re-hash, which lands after it, is never written. A Mongoose version that waited for the hook's promise would store the re-hash instead, and the account could no longer log in.

=== FILE: accounts.dfy ===
/** The account document (backend/models/userModel.js) and the uniqueness
    rules its indexes enforce. */
module Accounts {
  import opened Common
  import opened Collections

  datatype Role = Student | Parent | Teacher | Admin
  datatype AccountStatus = Pending | Active | Rejected

  /** `password` holds the stored credential hash; `studentCode` is the
      sparse unique code; `children` are the linked student ids, in link
      order. */
  datatype Account = Account(
    id: Id,
    name: string,
    username: string,
    email: string,
    password: string,
    role: Role,
    status: AccountStatus,
    approvedBy: Option<Id>,
    studentCode: Option<string>,
    children: seq<Id>)

  type Users = seq<Account>

  /** `User.findById(id)`. */
  function FindById(users: Users, id: Id): Option<nat> {
    FindFirst(users, (a: Account) => a.id == id)
  }

  /** The codes currently held, as the sparse index sees them. */
  function HeldCodes(users: Users): set<string> {
    set a | a in users && a.studentCode.Some? :: a.studentCode.value
  }

  ghost predicate IdsUnique(users: Users) {
    forall i, j :: 0 <= i < j < |users| ==> users[i].id != users[j].id
  }

  /** The unique, sparse `studentCode` index: accounts without a code are
      not indexed; the codes present are pairwise distinct. */
  ghost predicate CodesUnique(users: Users) {
    forall i, j :: 0 <= i < j < |users| && users[i].studentCode.Some? ==>
      users[i].studentCode != users[j].studentCode
  }

  /** The unique `username` and `email` indexes. */
  ghost predicate HandlesUnique(users: Users) {
    forall i, j :: 0 <= i < j < |users| ==>
      users[i].username != users[j].username && users[i].email != users[j].email
  }

  /** Only registration hands out codes, and only to students. */
  ghost predicate CodesOnlyForStudents(users: Users) {
    forall i :: 0 <= i < |users| && users[i].studentCode.Some? ==> users[i].role == Student
  }

  ghost predicate Valid(users: Users) {
    IdsUnique(users) && CodesUnique(users) && HandlesUnique(users) && CodesOnlyForStudents(users)
  }

  /** Replacing an account by one with the same id, handles, role and code
      keeps every index satisfied. */
  lemma ValidUpdate(users: Users, i: nat, a: Account)
    requires i < |users|
    requires a.id == users[i].id && a.username == users[i].username && a.email == users[i].email
    requires a.role == users[i].role && a.studentCode == users[i].studentCode
    ensures Valid(users) ==> Valid(users[i := a])
  {
  }

  /** Appending an account that clashes with no existing id, handle or
      code keeps every index satisfied. */
  lemma ValidAppend(users: Users, a: Account)
    requires Valid(users)
    requires forall i :: 0 <= i < |users| ==>
      users[i].id != a.id && users[i].username != a.username && users[i].email != a.email
    requires a.studentCode.Some? ==> a.role == Student && a.studentCode.value !in HeldCodes(users)
    ensures Valid(users + [a])
  {
    var u := users + [a];
    forall i | 0 <= i < |users| && users[i].studentCode.Some?
      ensures users[i].studentCode != a.studentCode
    {
      assert users[i] in users;
      assert users[i].studentCode.value in HeldCodes(users);
    }
    assert forall i :: 0 <= i < |users| ==> u[i] == users[i];
    assert u[|users|] == a;
  }

  /** Removing an account keeps every index satisfied. */
  lemma ValidRemoveAt(users: Users, i: nat)
    requires i < |users|
    ensures Valid(users) ==> Valid(RemoveAt(users, i))
  {
    var r := RemoveAt(users, i);
    if Valid(users) {
      forall j, k | 0 <= j < k < |r|
        ensures r[j].id != r[k].id
        ensures r[j].username != r[k].username && r[j].email != r[k].email
        ensures r[j].studentCode.Some? ==> r[j].studentCode != r[k].studentCode
      {
        var j' := if j < i then j else j + 1;
        var k' := if k < i then k else k + 1;
        assert j' < k' && r[j] == users[j'] && r[k] == users[k'];
      }
      forall j | 0 <= j < |r| && r[j].studentCode.Some?
        ensures r[j].role == Student
      {
        assert r[j] == users[if j < i then j else j + 1];
      }
    }
  }

  // ---------------------------------------------------------------------
  // The `lowercase: true, trim: true` setters of `username` and `email`.
  // Mongoose applies them both to stored values and to query values, so a
  // lookup compares canonical forms. Case mapping is modelled for ASCII
  // letters only.

  function LowerChar(c: char): (d: char)
    ensures 'A' <= c <= 'Z' ==> 'a' <= d <= 'z'
    ensures !('A' <= c <= 'Z') ==> d == c
  {
    if 'A' <= c <= 'Z' then (c as int + 32) as char else c
  }

  function Lower(s: string): (r: string)
    ensures |r| == |s|
    ensures forall i :: 0 <= i < |s| ==> r[i] == LowerChar(s[i])
  {
    seq(|s|, i requires 0 <= i < |s| => LowerChar(s[i]))
  }

  /** The characters `String.prototype.trim` strips: the white space and
      line terminators of ECMAScript (tab, vertical tab, form feed, space,
      no-break space, byte order mark, the space separators of Unicode
      category Zs, and LF, CR, LS, PS). */
  predicate IsSpace(c: char) {
    c == ' ' || c == '\t' || c == '\n' || c == '\r' || c == '\U{000B}' || c == '\U{000C}'
    || c == '\U{00A0}' || c == '\U{FEFF}' || c == '\U{1680}' || ('\U{2000}' <= c <= '\U{200A}')
    || c == '\U{2028}' || c == '\U{2029}' || c == '\U{202F}' || c == '\U{205F}' || c == '\U{3000}'
  }

  /** Drops exactly the leading blanks. */
  function TrimStart(s: string): (r: string)
    ensures |r| <= |s| && r == s[|s| - |r|..]
    ensures |r| > 0 ==> !IsSpace(r[0])
    ensures forall k :: 0 <= k < |s| - |r| ==> IsSpace(s[k])
    decreases |s|
  {
    if |s| > 0 && IsSpace(s[0]) then TrimStart(s[1..]) else s
  }

  /** Drops exactly the trailing blanks. */
  function TrimEnd(s: string): (r: string)
    ensures |r| <= |s| && r == s[..|r|]
    ensures |r| > 0 ==> !IsSpace(r[|r| - 1])
    ensures forall k :: |r| <= k < |s| ==> IsSpace(s[k])
    decreases |s|
  {
    if |s| > 0 && IsSpace(s[|s| - 1]) then TrimEnd(s[..|s| - 1]) else s
  }

  /** `String.prototype.trim`, the `trim: true` setter. */
  function Trim(s: string): string {
    TrimEnd(TrimStart(s))
  }

  /** Trimming twice is trimming once, so re-saving a stored value leaves
      it alone. */
  lemma TrimIdempotent(s: string)
    ensures Trim(Trim(s)) == Trim(s)
    ensures |Trim(s)| > 0 ==> !IsSpace(Trim(s)[0]) && !IsSpace(Trim(s)[|Trim(s)| - 1])
  {
    var a := TrimStart(s);
    var b := TrimEnd(a);
    assert TrimStart(b) == b;
  }

  /** A value of blanks only trims to the empty string. */
  lemma BlanksTrimAway()
    ensures Trim("  ") == ""
  {
    assert TrimStart(" ") == TrimStart("");
    assert TrimStart("  ") == TrimStart(" ");
  }

  /** The canonical form in which a username or email is stored and looked
      up. */
  function Canon(s: string): string {
    Trim(Lower(s))
  }
}

=== FILE: admin.dfy ===
/** Account approval, rejection, reactivation, deletion, admin linking and
    the pending/history listings (backend/controllers/adminController.js),
    each composed with the guard of its route (backend/routes/adminRoutes.js). */
module AdminController {
  import opened Common
  import opened Collections
  import opened Accounts
  import opened Auth

  /** The two role checks `approveUser` and `rejectUser` make. They only
      restrict admin and teacher actors; any other actor passes both. */
  predicate ControllerPermits(actor: Role, target: Role) {
    !(actor == Admin && target != Teacher && target != Parent) && !(actor == Teacher && target != Parent)
  }

  /** The approval matrix: admins decide on teachers and parents, teachers
      decide on parents, nobody else decides on anyone. */
  predicate MayDecide(actor: Role, target: Role) {
    match actor
    case Admin => target in {Teacher, Parent}
    case Teacher => target == Parent
    case _ => false
  }

  /** For the actors the `adminOrTeacher` guard lets through, the
      controller's checks are exactly the matrix; for the others they
      would let everything through, so the guard is what stops them. */
  lemma PermitsIsMatrixBehindGuard(actor: Role, target: Role)
    ensures actor in Admits(AdminOrTeacher) ==> (ControllerPermits(actor, target) <==> MayDecide(actor, target))
    ensures actor !in Admits(AdminOrTeacher) ==> ControllerPermits(actor, target)
  {
    match target
    case Student =>
    case Parent =>
    case Teacher =>
    case Admin =>
  }

  /** `users` with the account at `i` replaced, and nothing else. */
  ghost predicate OnlyChanged(users: Users, users': Users, i: nat, a: Account) {
    i < |users| && |users'| == |users| && users'[i] == a
    && forall j :: 0 <= j < |users| && j != i ==> users'[j] == users[j]
  }

  function ApproveUser(users: Users, actor: Account, id: Id): (r: Result<Users>)
    ensures FindById(users, id).None? ==> r == Err(NotFound)
    ensures FindById(users, id).Some? ==>
      var i := FindById(users, id).value;
      (!ControllerPermits(actor.role, users[i].role) ==> r == Err(Forbidden))
      && (ControllerPermits(actor.role, users[i].role) ==>
            r.Ok? && OnlyChanged(users, r.value, i, users[i].(status := Active, approvedBy := Some(actor.id))))
    ensures r.Ok? && Valid(users) ==> Valid(r.value)
  {
    match FindById(users, id)
    case None => Err(NotFound)
    case Some(i) =>
      if !ControllerPermits(actor.role, users[i].role) then Err(Forbidden)
      else
        var a := users[i].(status := Active, approvedBy := Some(actor.id));
        ValidUpdate(users, i, a);
        Ok(users[i := a])
  }

  function RejectUser(users: Users, actor: Account, id: Id): (r: Result<Users>)
    ensures FindById(users, id).None? ==> r == Err(NotFound)
    ensures FindById(users, id).Some? ==>
      var i := FindById(users, id).value;
      (!ControllerPermits(actor.role, users[i].role) ==> r == Err(Forbidden))
      && (ControllerPermits(actor.role, users[i].role) ==>
            r.Ok? && OnlyChanged(users, r.value, i, users[i].(status := Rejected)))
    ensures r.Ok? && Valid(users) ==> Valid(r.value)
  {
    match FindById(users, id)
    case None => Err(NotFound)
    case Some(i) =>
      if !ControllerPermits(actor.role, users[i].role) then Err(Forbidden)
      else
        var a := users[i].(status := Rejected);
        ValidUpdate(users, i, a);
        Ok(users[i := a])
  }

  /** `setUserActive`: only a rejected teacher or parent comes back. */
  function SetUserActive(users: Users, actor: Account, id: Id): (r: Result<Users>)
    ensures r == Err(NotFound) <==>
      FindById(users, id).None? || users[FindById(users, id).value].role !in {Teacher, Parent}
    ensures r == Err(BadRequest) <==>
      FindById(users, id).Some? && users[FindById(users, id).value].role in {Teacher, Parent}
      && users[FindById(users, id).value].status != Rejected
    ensures r.Ok? <==>
      FindById(users, id).Some? && users[FindById(users, id).value].role in {Teacher, Parent}
      && users[FindById(users, id).value].status == Rejected
    ensures r.Ok? ==>
      var i := FindById(users, id).value;
      users[i].status == Rejected
      && OnlyChanged(users, r.value, i, users[i].(status := Active, approvedBy := Some(actor.id)))
    ensures r.Ok? && Valid(users) ==> Valid(r.value)
  {
    match FindById(users, id)
    case None => Err(NotFound)
    case Some(i) =>
      if users[i].role != Teacher && users[i].role != Parent then Err(NotFound)
      else if users[i].status != Rejected then Err(BadRequest)
      else
        var a := users[i].(status := Active, approvedBy := Some(actor.id));
        ValidUpdate(users, i, a);
        Ok(users[i := a])
  }

  /** `deleteUser`: removes the one account, leaving every other account —
      and so every other `children` list — as it was. */
  function DeleteUser(users: Users, id: Id): (r: Result<Users>)
    ensures r == Err(NotFound) <==>
      FindById(users, id).None? || users[FindById(users, id).value].role == Admin
    ensures r.Ok? <==> FindById(users, id).Some? && users[FindById(users, id).value].role != Admin
    ensures r.Ok? ==>
      var i := FindById(users, id).value;
      |r.value| == |users| - 1
      && multiset(r.value) == multiset(users) - multiset{users[i]}
      && forall j :: 0 <= j < |r.value| ==> r.value[j] == users[if j < i then j else j + 1]
  {
    match FindById(users, id)
    case None => Err(NotFound)
    case Some(i) =>
      if users[i].role == Admin then Err(NotFound)
      else Ok(RemoveAt(users, i))
  }

  /** After a delete no account carries the id, every other account is
      still there unchanged, and every index stays satisfied. */
  lemma DeleteRemovesExactlyTarget(users: Users, id: Id)
    requires Valid(users)
    requires DeleteUser(users, id).Ok?
    ensures forall a :: a in DeleteUser(users, id).value <==> a in users && a.id != id
    ensures Valid(DeleteUser(users, id).value)
  {
    var i := FindById(users, id).value;
    var r := DeleteUser(users, id).value;
    forall a | a in users && a.id != id
      ensures a in r
    {
      var k :| 0 <= k < |users| && users[k] == a;
      assert k != i;
      assert r[if k < i then k else k - 1] == a;
    }
    forall a | a in r
      ensures a in users && a.id != id
    {
      var j :| 0 <= j < |r| && r[j] == a;
      assert a == users[if j < i then j else j + 1];
    }
    ValidRemoveAt(users, i);
  }

  /** `linkStudentAsAdmin`. It never checks that the second account is a
      student, and no route mounts it. */
  function LinkStudentAsAdmin(users: Users, targetId: Id, studentId: Id): (r: Result<Users>)
    ensures r == Err(NotFound) <==> FindById(users, targetId).None? || FindById(users, studentId).None?
    ensures r == Err(Forbidden) <==>
      FindById(users, targetId).Some? && FindById(users, studentId).Some?
      && users[FindById(users, targetId).value].role !in {Teacher, Parent}
    ensures r == Err(BadRequest) <==>
      FindById(users, targetId).Some? && FindById(users, studentId).Some?
      && users[FindById(users, targetId).value].role in {Teacher, Parent}
      && studentId in users[FindById(users, targetId).value].children
    ensures r.Ok? <==>
      FindById(users, targetId).Some? && FindById(users, studentId).Some?
      && users[FindById(users, targetId).value].role in {Teacher, Parent}
      && studentId !in users[FindById(users, targetId).value].children
    ensures r.Ok? ==>
      var t := FindById(users, targetId).value;
      studentId !in users[t].children
      && OnlyChanged(users, r.value, t, users[t].(children := users[t].children + [studentId]))
    ensures r.Ok? && Valid(users) ==> Valid(r.value)
  {
    match (FindById(users, targetId), FindById(users, studentId))
    case (None, _) => Err(NotFound)
    case (_, None) => Err(NotFound)
    case (Some(t), Some(s)) =>
      if users[t].role != Teacher && users[t].role != Parent then Err(Forbidden)
      else if users[s].id in users[t].children then Err(BadRequest)
      else
        var a := users[t].(children := users[t].children + [users[s].id]);
        ValidUpdate(users, t, a);
        Ok(users[t := a])
  }

  /** The missing role check is observable: an admin can link a teacher
      account as a parent's "child". */
  lemma AdminLinkAcceptsNonStudent()
    ensures var parent := Account("p", "P", "p", "p@x", "h", Parent, Active, None, None, []);
      var teacher := Account("t", "T", "t", "t@x", "h", Teacher, Active, None, None, []);
      var r := LinkStudentAsAdmin([parent, teacher], "p", "t");
      r.Ok? && r.value[0].children == ["t"] && r.value[1].role != Student
  {
    var parent := Account("p", "P", "p", "p@x", "h", Parent, Active, None, None, []);
    var teacher := Account("t", "T", "t", "t@x", "h", Teacher, Active, None, None, []);
    var p := (a: Account) => a.id == "t";
    assert [parent, teacher][1..] == [teacher];
    assert FindFirst([teacher], p) == Some(0);
    assert FindById([parent, teacher], "p") == Some(0);
    assert FindById([parent, teacher], "t") == Some(1);
  }

  // ---------------------------------------------------------------------
  // Listings

  /** Pending registrations of one role, in store order. */
  function PendingOf(users: Users, role: Role): (r: Users)
    ensures forall a :: a in r <==> a in users && a.role == role && a.status == Pending
  {
    Filter(users, (a: Account) => a.role == role && a.status == Pending)
  }

  /** Decided registrations of one role (approved or rejected). */
  function HistoryOf(users: Users, role: Role): (r: Users)
    ensures forall a :: a in r <==> a in users && a.role == role && a.status in {Active, Rejected}
  {
    Filter(users, (a: Account) => a.role == role && (a.status == Active || a.status == Rejected))
  }

  /** `getAllStudents`. */
  function StudentsOf(users: Users): (r: Users)
    ensures forall a :: a in r <==> a in users && a.role == Student
  {
    Filter(users, (a: Account) => a.role == Student)
  }

  /** Pending, history and pending-or-decided never overlap, and together
      they cover every account of the role. */
  lemma ListingsPartition(users: Users, role: Role)
    ensures forall a :: a in PendingOf(users, role) ==> a !in HistoryOf(users, role)
    ensures forall a :: a in users && a.role == role ==> a in PendingOf(users, role) || a in HistoryOf(users, role)
  {
    forall a | a in users && a.role == role
      ensures a in PendingOf(users, role) || a in HistoryOf(users, role)
    {
      match a.status
      case Pending =>
      case Active =>
      case Rejected =>
    }
  }

  datatype Listing = PendingTeachers | PendingParents | HistoryTeachers | HistoryParents | AllStudents

  /** The guard each listing route applies. */
  function ListingGuard(l: Listing): Guard {
    match l
    case PendingTeachers => AdminOnly
    case HistoryTeachers => AdminOnly
    case AllStudents => AdminOnly
    case PendingParents => AdminOrTeacher
    case HistoryParents => AdminOrTeacher
  }

  /** The accounts each listing route returns. */
  function ListingOf(users: Users, l: Listing): Users {
    match l
    case PendingTeachers => PendingOf(users, Teacher)
    case PendingParents => PendingOf(users, Parent)
    case HistoryTeachers => HistoryOf(users, Teacher)
    case HistoryParents => HistoryOf(users, Parent)
    case AllStudents => StudentsOf(users)
  }

  function ListRoute(auth: Authentication, users: Users, l: Listing): (r: Result<Users>)
    ensures r == Err(Unauthorized) <==> !auth.Authenticated?
    ensures r.Ok? <==>
      auth.Authenticated? && auth.user.Some? && auth.user.value.role in Admits(ListingGuard(l))
    ensures r.Ok? ==> r.value == ListingOf(users, l)
    ensures r.Ok? ==> auth.Authenticated? && auth.user.Some?
    ensures r.Ok? && l in {PendingTeachers, HistoryTeachers, AllStudents} ==> auth.user.value.role == Admin
    ensures r.Ok? && l in {PendingParents, HistoryParents} ==> auth.user.value.role in {Admin, Teacher}
    ensures r.Ok? && l == PendingTeachers ==> forall a :: a in r.value ==> a.role == Teacher && a.status == Pending
    ensures r.Ok? && l == PendingParents ==> forall a :: a in r.value ==> a.role == Parent && a.status == Pending
    ensures r.Ok? && l == HistoryTeachers ==> forall a :: a in r.value ==> a.role == Teacher && a.status != Pending
    ensures r.Ok? && l == HistoryParents ==> forall a :: a in r.value ==> a.role == Parent && a.status != Pending
  {
    match Authorize(auth, ListingGuard(l))
    case Err(e) => Err(e)
    case Ok(_) => Ok(ListingOf(users, l))
  }

  // ---------------------------------------------------------------------
  // Routes

  /** `PUT /approve/:id` behind `adminOrTeacher`: succeeds exactly for an
      authenticated actor allowed by the matrix on an existing target,
      whatever the target's current status. */
  function ApproveRoute(auth: Authentication, users: Users, id: Id): (r: Result<Users>)
    ensures r.Ok? <==>
      auth.Authenticated? && auth.user.Some? && FindById(users, id).Some?
      && MayDecide(auth.user.value.role, users[FindById(users, id).value].role)
    ensures r.Ok? ==>
      var i := FindById(users, id).value;
      OnlyChanged(users, r.value, i, users[i].(status := Active, approvedBy := Some(auth.user.value.id)))
  {
    match Authorize(auth, AdminOrTeacher)
    case Err(e) => Err(e)
    case Ok(actor) =>
      match FindById(users, id)
      case None => ApproveUser(users, actor, id)
      case Some(i) =>
        PermitsIsMatrixBehindGuard(actor.role, users[i].role);
        ApproveUser(users, actor, id)
  }

  /** `PUT /reject/:id` behind `adminOrTeacher`. */
  function RejectRoute(auth: Authentication, users: Users, id: Id): (r: Result<Users>)
    ensures r.Ok? <==>
      auth.Authenticated? && auth.user.Some? && FindById(users, id).Some?
      && MayDecide(auth.user.value.role, users[FindById(users, id).value].role)
    ensures r.Ok? ==>
      var i := FindById(users, id).value;
      OnlyChanged(users, r.value, i, users[i].(status := Rejected))
  {
    match Authorize(auth, AdminOrTeacher)
    case Err(e) => Err(e)
    case Ok(actor) =>
      match FindById(users, id)
      case None => RejectUser(users, actor, id)
      case Some(i) =>
        PermitsIsMatrixBehindGuard(actor.role, users[i].role);
        RejectUser(users, actor, id)
  }

  /** `PUT /set-active/:id` behind `adminOnly`. */
  function SetActiveRoute(auth: Authentication, users: Users, id: Id): (r: Result<Users>)
    ensures r.Ok? ==> auth.Authenticated? && auth.user.Some? && auth.user.value.role == Admin
    ensures r.Ok? ==> FindById(users, id).Some? && users[FindById(users, id).value].status == Rejected
    ensures r == Err(Unauthorized) <==> !auth.Authenticated?
    ensures auth.Authenticated? && auth.user.Some? && auth.user.value.role == Admin ==>
      r == SetUserActive(users, auth.user.value, id)
    ensures auth.Authenticated? && auth.user.Some? && auth.user.value.role != Admin ==> r == Err(Forbidden)
  {
    match Authorize(auth, AdminOnly)
    case Err(e) => Err(e)
    case Ok(actor) => SetUserActive(users, actor, id)
  }

  /** `DELETE /user/:id` behind `adminOnly`. */
  function DeleteRoute(auth: Authentication, users: Users, id: Id): (r: Result<Users>)
    ensures r.Ok? ==> auth.Authenticated? && auth.user.Some? && auth.user.value.role == Admin
    ensures r.Ok? ==> |r.value| == |users| - 1
    ensures r == Err(Unauthorized) <==> !auth.Authenticated?
    ensures auth.Authenticated? && auth.user.Some? && auth.user.value.role == Admin ==>
      r == DeleteUser(users, id)
    ensures auth.Authenticated? && auth.user.Some? && auth.user.value.role != Admin ==> r == Err(Forbidden)
  {
    match Authorize(auth, AdminOnly)
    case Err(e) => Err(e)
    case Ok(_) => DeleteUser(users, id)
  }

  /** Through the routes, a student account never changes status: approve,
      reject and reactivation all refuse it. */
  lemma StudentStatusIsFixed(auth: Authentication, users: Users, id: Id)
    requires FindById(users, id).Some? && users[FindById(users, id).value].role == Student
    ensures ApproveRoute(auth, users, id).Err?
    ensures RejectRoute(auth, users, id).Err?
    ensures SetActiveRoute(auth, users, id).Err?
  {
  }

  /** Approving twice by the same actor is the same as approving once. */
  lemma {:induction false} ApproveIdempotent(users: Users, actor: Account, id: Id)
    requires ApproveUser(users, actor, id).Ok?
    ensures ApproveUser(ApproveUser(users, actor, id).value, actor, id) == ApproveUser(users, actor, id)
  {
    var users' := ApproveUser(users, actor, id).value;
    var i := FindById(users, id).value;
    var p := (a: Account) => a.id == id;
    assert forall j :: 0 <= j < |users| ==> p(users'[j]) == p(users[j]);
    FindFirstSame(users, users', p);
    UpdateSelf(users', i);
  }
}

=== FILE: auth.dfy ===
/** The `protect` middleware and the role guards
    (backend/middleware/authMiddleware.js). Token verification is a foreign
    call and is taken as a parameter: `verify(token)` is the id the token
    carries, or `None` when `jwt.verify` throws. */
module Auth {
  import opened Common
  import opened Collections
  import opened Accounts

  /** What `protect` leaves behind for the next handler. */
  datatype Authentication =
    | Authenticated(user: Option<Account>) // `req.user`, null when the id no longer resolves
    | NoToken                              // 401 "no token"
    | TokenFailed                          // 401 "token failed"

  predicate StartsWith(s: string, prefix: string) {
    |prefix| <= |s| && s[..|prefix|] == prefix
  }

  /** `f` is the field that starts after the first space of `s`, at index
      `i`, and runs up to the next space or the end of `s`. */
  predicate FieldAfter(s: string, i: int, f: string) {
    0 <= i < |s| && s[i] == ' ' && ' ' !in s[..i]
    && i + 1 + |f| <= |s| && s[i + 1..i + 1 + |f|] == f
    && (i + 1 + |f| == |s| || s[i + 1 + |f|] == ' ')
  }

  /** `s.split(' ')[1]`: the text between the first and the second space,
      undefined when there is no space. */
  function SecondField(s: string): (r: Option<string>)
    ensures r.None? <==> ' ' !in s
    ensures r.Some? ==> ' ' !in r.value
    ensures r.Some? ==> exists i :: FieldAfter(s, i, r.value)
  {
    match FindFirst(s, (c: char) => c == ' ')
    case None => None
    case Some(i) =>
      var rest := s[i + 1..];
      match FindFirst(rest, (c: char) => c == ' ')
      case None =>
        assert FieldAfter(s, i, rest);
        Some(rest)
      case Some(j) =>
        assert s[i + 1..i + 1 + j] == rest[..j];
        assert FieldAfter(s, i, rest[..j]);
        Some(rest[..j])
  }

  /** The bearer token `protect` hands to `jwt.verify`; `jwt.verify` throws
      on a missing or empty token, which the model folds into `None`. */
  function BearerToken(authorization: Option<string>): Option<string> {
    match authorization
    case None => None
    case Some(h) =>
      match SecondField(h)
      case Some(t) => if t == "" then None else Some(t)
      case None => None
  }

  predicate HasBearerHeader(authorization: Option<string>) {
    authorization.Some? && StartsWith(authorization.value, "Bearer")
  }

  function Protect(authorization: Option<string>, verify: string -> Option<Id>, users: Users): (r: Authentication)
    ensures r == NoToken <==> !HasBearerHeader(authorization)
    ensures r == TokenFailed <==>
      HasBearerHeader(authorization) &&
      (BearerToken(authorization).None? || verify(BearerToken(authorization).value).None?)
    ensures r.Authenticated? ==>
      var id := verify(BearerToken(authorization).value).value;
      (r.user.Some? ==> r.user.value.id == id && r.user.value in users) &&
      (r.user.None? ==> forall j :: 0 <= j < |users| ==> users[j].id != id)
  {
    if !HasBearerHeader(authorization) then NoToken
    else
      match BearerToken(authorization)
      case None => TokenFailed
      case Some(token) =>
        match verify(token)
        case None => TokenFailed
        case Some(id) =>
          match FindById(users, id)
          case None => Authenticated(None)
          case Some(i) => Authenticated(Some(users[i]))
  }

  datatype Guard =
    | AdminOnly
    | StudentOnly
    | TeacherOnly
    | ParentOrTeacher
    | AdminOrTeacher

  /** The roles each guard is meant to let through. */
  function Admits(g: Guard): set<Role> {
    match g
    case AdminOnly => {Admin}
    case StudentOnly => {Student}
    case TeacherOnly => {Teacher}
    case ParentOrTeacher => {Parent, Teacher, Admin}
    case AdminOrTeacher => {Admin, Teacher}
  }

  /** The guard middleware run on `req.user`. The four guards that test
      `req.user &&` answer 403 for a missing user; `parentOrTeacher`
      dereferences it and fails. A route behind `protect` alone has no
      guard: its handler meets a missing user on its own terms. */
  function Check(g: Guard, user: Option<Account>): Result<Account> {
    match g
    case AdminOnly =>
      if user.Some? && user.value.role == Admin then Ok(user.value) else Err(Forbidden)
    case StudentOnly =>
      if user.Some? && user.value.role == Student then Ok(user.value) else Err(Forbidden)
    case TeacherOnly =>
      if user.Some? && user.value.role == Teacher then Ok(user.value) else Err(Forbidden)
    case ParentOrTeacher =>
      if user.None? then Err(Internal)
      else if user.value.role in [Parent, Teacher, Admin] then Ok(user.value)
      else Err(Forbidden)
    case AdminOrTeacher =>
      if user.Some? && (user.value.role == Admin || user.value.role == Teacher) then Ok(user.value)
      else Err(Forbidden)
  }

  /** Each guard passes an account exactly when its role is one the guard
      admits, and then hands that same account on. */
  lemma CheckMatchesAdmits(g: Guard, a: Account)
    ensures Check(g, Some(a)).Ok? <==> a.role in Admits(g)
    ensures Check(g, Some(a)).Ok? ==> Check(g, Some(a)).value == a
    ensures Check(g, Some(a)).Err? ==> Check(g, Some(a)).error == Forbidden
    ensures Check(g, None).Err?
    ensures Check(g, None).error == Internal <==> g == ParentOrTeacher
  {
    match a.role
    case Student =>
    case Parent =>
    case Teacher =>
    case Admin =>
  }

  /** `protect` followed by a guard: who reaches the handler. */
  function Authorize(auth: Authentication, g: Guard): (r: Result<Account>)
    ensures r.Ok? ==> auth == Authenticated(Some(r.value)) && r.value.role in Admits(g)
    ensures r == Err(Unauthorized) <==> !auth.Authenticated?
    ensures auth.Authenticated? && auth.user.Some? && auth.user.value.role in Admits(g) ==> r.Ok?
    ensures auth.Authenticated? && auth.user.Some? && auth.user.value.role !in Admits(g) ==> r == Err(Forbidden)
  {
    match auth
    case NoToken => Err(Unauthorized)
    case TokenFailed => Err(Unauthorized)
    case Authenticated(None) => Check(g, None)
    case Authenticated(Some(a)) =>
      CheckMatchesAdmits(g, a);
      Check(g, Some(a))
  }
}

=== FILE: chatbot.dfy ===
/** `normalizeLineBreaks` of the chat widget
    (frontend/src/components/chatbot/Chatbot.jsx): every run of two or more
    line feeds becomes one, as `replace(/\n{2,}/g, '\n')` does. */
module Chatbot {

  const LF: char := '\n'

  /** No line feed directly follows another. */
  predicate NoDoubleBreak(s: string) {
    forall i :: 0 <= i < |s| - 1 ==> !(s[i] == LF && s[i + 1] == LF)
  }

  /** The text with every line feed taken out. */
  function Unbroken(s: string): (r: string)
    ensures forall i :: 0 <= i < |r| ==> r[i] != LF
    decreases |s|
  {
    if |s| == 0 then ""
    else (if s[0] == LF then "" else [s[0]]) + Unbroken(s[1..])
  }

  /** The text after the leading run of line feeds. */
  function SkipBreaks(s: string): (r: string)
    ensures |r| <= |s| && r == s[|s| - |r|..]
    ensures |r| > 0 ==> r[0] != LF
    ensures forall k :: 0 <= k < |s| - |r| ==> s[k] == LF
    decreases |s|
  {
    if |s| > 0 && s[0] == LF then SkipBreaks(s[1..]) else s
  }

  /** `normalizeLineBreaks`, read as the regular expression matches: a line
      feed starts a run, which is replaced by one line feed. (A run of one
      is not matched and stays as it is, which is the same thing.) */
  function NormalizeLineBreaks(s: string): (r: string)
    ensures |r| <= |s|
    ensures |r| > 0 && r[0] == LF <==> |s| > 0 && s[0] == LF
    decreases |s|
  {
    if |s| == 0 then ""
    else if s[0] == LF then [LF] + NormalizeLineBreaks(SkipBreaks(s[1..]))
    else [s[0]] + NormalizeLineBreaks(s[1..])
  }

  /** An independent reading, one character at a time: a line feed is
      dropped exactly when the character before it was a line feed. */
  function KeepBreaks(s: string, afterBreak: bool): string
    decreases |s|
  {
    if |s| == 0 then ""
    else (if s[0] == LF && afterBreak then "" else [s[0]]) + KeepBreaks(s[1..], s[0] == LF)
  }

  /** After a line feed, a leading run of line feeds is dropped whole. */
  lemma {:induction false} KeepSkipsRun(s: string)
    ensures KeepBreaks(s, true) == KeepBreaks(SkipBreaks(s), false)
    decreases |s|
  {
    if |s| > 0 && s[0] == LF {
      KeepSkipsRun(s[1..]);
    }
  }

  /** The run-by-run and the character-by-character readings agree. */
  lemma {:induction false} NormalizeMatchesReference(s: string)
    ensures NormalizeLineBreaks(s) == KeepBreaks(s, false)
    decreases |s|
  {
    if |s| > 0 {
      if s[0] == LF {
        NormalizeMatchesReference(SkipBreaks(s[1..]));
        KeepSkipsRun(s[1..]);
      } else {
        NormalizeMatchesReference(s[1..]);
      }
    }
  }

  /** The result never holds two line feeds in a row. */
  lemma {:induction false} NormalizeNoDoubleBreak(s: string)
    ensures NoDoubleBreak(NormalizeLineBreaks(s))
    decreases |s|
  {
    if |s| > 0 {
      var r := NormalizeLineBreaks(s);
      if s[0] == LF {
        var rest := SkipBreaks(s[1..]);
        NormalizeNoDoubleBreak(rest);
        assert r == [LF] + NormalizeLineBreaks(rest);
      } else {
        NormalizeNoDoubleBreak(s[1..]);
        assert r == [s[0]] + NormalizeLineBreaks(s[1..]);
      }
    }
  }

  /** Text without a double line feed comes back unchanged. */
  lemma {:induction false} NormalizeKeepsClean(s: string)
    requires NoDoubleBreak(s)
    ensures NormalizeLineBreaks(s) == s
    decreases |s|
  {
    if |s| > 0 {
      assert NoDoubleBreak(s[1..]) by {
        forall i | 0 <= i < |s[1..]| - 1
          ensures !(s[1..][i] == LF && s[1..][i + 1] == LF)
        {
          assert s[1..][i] == s[i + 1] && s[1..][i + 1] == s[i + 2];
        }
      }
      if s[0] == LF && |s| > 1 {
        assert s[1] != LF;
      }
      NormalizeKeepsClean(s[1..]);
      assert s == [s[0]] + s[1..];
    }
  }

  /** Normalising twice is normalising once. */
  lemma NormalizeIdempotent(s: string)
    ensures NormalizeLineBreaks(NormalizeLineBreaks(s)) == NormalizeLineBreaks(s)
  {
    NormalizeNoDoubleBreak(s);
    NormalizeKeepsClean(NormalizeLineBreaks(s));
  }

  /** A leading run of line feeds carries no other character. */
  lemma {:induction false} UnbrokenSkip(s: string)
    ensures Unbroken(SkipBreaks(s)) == Unbroken(s)
    decreases |s|
  {
    if |s| > 0 && s[0] == LF {
      UnbrokenSkip(s[1..]);
    }
  }

  /** Only line feeds are removed: with every line feed taken out, input
      and output are the same text. */
  lemma {:induction false} NormalizeKeepsText(s: string)
    ensures Unbroken(NormalizeLineBreaks(s)) == Unbroken(s)
    decreases |s|
  {
    if |s| > 0 {
      var r := NormalizeLineBreaks(s);
      if s[0] == LF {
        var rest := SkipBreaks(s[1..]);
        NormalizeKeepsText(rest);
        UnbrokenSkip(s[1..]);
        assert r == [LF] + NormalizeLineBreaks(rest);
        assert r[1..] == NormalizeLineBreaks(rest);
      } else {
        NormalizeKeepsText(s[1..]);
        assert r[1..] == NormalizeLineBreaks(s[1..]);
      }
    }
  }
}

=== FILE: collections.dfy ===
/** A document collection is a sequence in natural order. This module gives
    the three query shapes the controllers use — `findOne` (first match),
    `find` (all matches, in order) and `countDocuments` — and the
    descending `sort` of a result. */
module Collections {
  import opened Common

  /** `findOne`: the index of the first document that matches. */
  function FindFirst<T>(s: seq<T>, p: T -> bool): (r: Option<nat>)
    ensures r.Some? ==> r.value < |s| && p(s[r.value])
    ensures r.Some? ==> forall j :: 0 <= j < r.value ==> !p(s[j])
    ensures r.None? <==> forall j :: 0 <= j < |s| ==> !p(s[j])
    decreases |s|
  {
    if |s| == 0 then None
    else if p(s[0]) then Some(0)
    else
      match FindFirst(s[1..], p)
      case None => None
      case Some(k) => Some(k + 1)
  }

  /** `findOne` answers the same on two collections that agree on which
      positions match. */
  lemma {:induction false} FindFirstSame<T>(s: seq<T>, t: seq<T>, p: T -> bool)
    requires |s| == |t|
    requires forall j :: 0 <= j < |s| ==> p(s[j]) == p(t[j])
    ensures FindFirst(s, p) == FindFirst(t, p)
    decreases |s|
  {
    if |s| > 0 {
      FindFirstSame(s[1..], t[1..], p);
    }
  }

  /** Writing a slot back unchanged leaves the sequence as it was. */
  lemma UpdateSelf<T>(s: seq<T>, i: nat)
    requires i < |s|
    ensures s[i := s[i]] == s
  {
  }

  /** `find`: every matching document, in collection order. */
  function Filter<T>(s: seq<T>, p: T -> bool): (r: seq<T>)
    ensures |r| <= |s|
    ensures forall i :: 0 <= i < |r| ==> p(r[i])
    ensures forall x :: x in r ==> x in s && p(x)
    ensures forall i :: 0 <= i < |s| && p(s[i]) ==> s[i] in r
    decreases |s|
  {
    if |s| == 0 then []
    else (if p(s[0]) then [s[0]] else []) + Filter(s[1..], p)
  }

  /** `countDocuments`. */
  function Count<T>(s: seq<T>, p: T -> bool): nat {
    |Filter(s, p)|
  }

  lemma {:induction false} FilterAppend<T>(s: seq<T>, t: seq<T>, p: T -> bool)
    ensures Filter(s + t, p) == Filter(s, p) + Filter(t, p)
    decreases |s|
  {
    if |s| == 0 {
      assert s + t == t;
    } else {
      assert (s + t)[0] == s[0];
      assert (s + t)[1..] == s[1..] + t;
      FilterAppend(s[1..], t, p);
    }
  }

  lemma {:induction false} FilterNone<T>(s: seq<T>, p: T -> bool)
    requires forall i :: 0 <= i < |s| ==> !p(s[i])
    ensures Filter(s, p) == []
    decreases |s|
  {
    if |s| > 0 {
      FilterNone(s[1..], p);
    }
  }

  lemma {:induction false} FilterAll<T>(s: seq<T>, p: T -> bool)
    requires forall i :: 0 <= i < |s| ==> p(s[i])
    ensures Filter(s, p) == s
    decreases |s|
  {
    if |s| > 0 {
      FilterAll(s[1..], p);
    }
  }

  /** A count is positive exactly when some document matches. */
  lemma CountPositive<T>(s: seq<T>, p: T -> bool)
    ensures Count(s, p) > 0 <==> exists i :: 0 <= i < |s| && p(s[i])
  {
    if exists i :: 0 <= i < |s| && p(s[i]) {
      var i :| 0 <= i < |s| && p(s[i]);
      assert s[i] in Filter(s, p);
    }
    if Count(s, p) > 0 {
      var x := Filter(s, p)[0];
      assert x in Filter(s, p);
      var i :| 0 <= i < |s| && s[i] == x;
      assert p(s[i]);
    }
  }

  /** Matches and non-matches partition the collection. */
  lemma {:induction false} CountComplement<T>(s: seq<T>, p: T -> bool)
    ensures Count(s, p) + Count(s, x => !p(x)) == |s|
    decreases |s|
  {
    if |s| > 0 {
      CountComplement(s[1..], p);
    }
  }

  /** Every document matches exactly when the count is the whole size. */
  lemma CountFull<T>(s: seq<T>, p: T -> bool)
    ensures Count(s, p) == |s| <==> forall i :: 0 <= i < |s| ==> p(s[i])
  {
    CountComplement(s, p);
    CountPositive(s, x => !p(x));
  }

  /** Appending one document adds one to every count it matches. */
  lemma CountSnoc<T>(s: seq<T>, x: T, p: T -> bool)
    ensures Count(s + [x], p) == Count(s, p) + (if p(x) then 1 else 0)
  {
    FilterAppend(s, [x], p);
  }

  /** Replacing one document by another that matches exactly when the old
      one did leaves a count unchanged. */
  lemma CountUpdate<T>(s: seq<T>, i: nat, x: T, p: T -> bool)
    requires i < |s|
    requires p(x) == p(s[i])
    ensures Count(s[i := x], p) == Count(s, p)
  {
    var u := s[i := x];
    assert s == s[..i] + [s[i]] + s[i + 1..];
    assert u == s[..i] + [x] + s[i + 1..];
    FilterAppend(s[..i] + [s[i]], s[i + 1..], p);
    FilterAppend(s[..i], [s[i]], p);
    FilterAppend(s[..i] + [x], s[i + 1..], p);
    FilterAppend(s[..i], [x], p);
  }

  /** Dropping the document at one position (`deleteOne`). */
  function RemoveAt<T>(s: seq<T>, i: nat): (r: seq<T>)
    requires i < |s|
    ensures |r| == |s| - 1
    ensures forall j :: 0 <= j < |r| ==> r[j] == s[if j < i then j else j + 1]
    ensures multiset(r) == multiset(s) - multiset{s[i]}
  {
    assert s == s[..i] + [s[i]] + s[i + 1..];
    s[..i] + s[i + 1..]
  }

  /** Dropping one document takes it out of every count it was in. */
  lemma CountRemoveAt<T>(s: seq<T>, i: nat, p: T -> bool)
    requires i < |s|
    ensures Count(RemoveAt(s, i), p) + (if p(s[i]) then 1 else 0) == Count(s, p)
  {
    assert s == s[..i] + [s[i]] + s[i + 1..];
    assert RemoveAt(s, i) == s[..i] + s[i + 1..];
    FilterAppend(s[..i] + [s[i]], s[i + 1..], p);
    FilterAppend(s[..i], [s[i]], p);
    FilterAppend(s[..i], s[i + 1..], p);
  }

  /** Dropping the documents that match (`deleteMany`). */
  function RemoveWhere<T>(s: seq<T>, p: T -> bool): (r: seq<T>)
    ensures forall i :: 0 <= i < |r| ==> !p(r[i])
    ensures forall i :: 0 <= i < |s| && !p(s[i]) ==> s[i] in r
    ensures forall x :: x in r ==> x in s
    ensures |r| + Count(s, p) == |s|
  {
    CountComplement(s, p);
    Filter(s, x => !p(x))
  }

  /** Both conditions of a compound query filter. */
  function Both<T>(p: T -> bool, q: T -> bool): T -> bool {
    x => p(x) && q(x)
  }

  /** Filtering a result again is filtering once by both conditions. */
  lemma {:induction false} FilterFilter<T>(s: seq<T>, p: T -> bool, q: T -> bool)
    ensures Filter(Filter(s, p), q) == Filter(s, Both(p, q))
    decreases |s|
  {
    if |s| > 0 {
      FilterFilter(s[1..], p, q);
      FilterAppend(if p(s[0]) then [s[0]] else [], Filter(s[1..], p), q);
    }
  }

  lemma SplitAt<T>(t: seq<T>, i: nat)
    requires i < |t|
    ensures t == t[..i] + [t[i]] + t[i + 1..]
    ensures RemoveAt(t, i) == t[..i] + t[i + 1..]
  {
  }

  /** The matches around one position, with and without the document
      there. */
  lemma FilterSplit<T>(t: seq<T>, i: nat, p: T -> bool)
    requires i < |t|
    ensures Filter(t, p) == Filter(t[..i], p) + Filter([t[i]], p) + Filter(t[i + 1..], p)
    ensures Filter(RemoveAt(t, i), p) == Filter(t[..i], p) + Filter(t[i + 1..], p)
  {
    var a, x, b := t[..i], [t[i]], t[i + 1..];
    SplitAt(t, i);
    FilterAppend(a + x, b, p);
    FilterAppend(a, x, p);
    FilterAppend(a, b, p);
  }

  lemma FilterSingle<T>(x: T, p: T -> bool)
    ensures Filter([x], p) == if p(x) then [x] else []
  {
    assert [x][1..] == [];
  }

  /** The matches of a collection are those of the collection without
      one document, plus that document if it matches. */
  lemma FilterRemoveAt<T>(t: seq<T>, i: nat, p: T -> bool)
    requires i < |t|
    ensures multiset(Filter(t, p)) ==
      multiset(Filter(RemoveAt(t, i), p)) + (if p(t[i]) then multiset{t[i]} else multiset{})
  {
    FilterSplit(t, i, p);
    FilterSingle(t[i], p);
    MultisetMiddle(Filter(t[..i], p), Filter([t[i]], p), Filter(t[i + 1..], p));
  }

  lemma MultisetMiddle<T>(a: seq<T>, x: seq<T>, b: seq<T>)
    ensures multiset(a + x + b) == multiset(a + b) + multiset(x)
  {
  }

  /** Reordering a collection reorders its matches and nothing else. */
  lemma {:induction false} FilterPermutation<T>(s: seq<T>, t: seq<T>, p: T -> bool)
    requires multiset(s) == multiset(t)
    ensures multiset(Filter(s, p)) == multiset(Filter(t, p))
    decreases |s|
  {
    if |s| == 0 {
      assert |t| == |multiset(t)| == 0;
      assert t == [];
    } else {
      var x := s[0];
      assert x in multiset(s);
      var i :| 0 <= i < |t| && t[i] == x;
      assert s == [x] + s[1..];
      assert multiset(s[1..]) == multiset(RemoveAt(t, i));
      FilterPermutation(s[1..], RemoveAt(t, i), p);
      FilterRemoveAt(t, i, p);
      assert Filter(s, p) == (if p(x) then [x] else []) + Filter(s[1..], p);
      MultisetCons(Filter(s, p), Filter(s[1..], p), Filter(t, p), Filter(RemoveAt(t, i), p), x, p(x));
    }
  }

  /** Bookkeeping for the step of FilterPermutation, kept apart from the
      facts about Filter. */
  lemma MultisetCons<T>(fs: seq<T>, rest: seq<T>, ft: seq<T>, fr: seq<T>, x: T, keep: bool)
    requires fs == (if keep then [x] else []) + rest
    requires multiset(rest) == multiset(fr)
    requires multiset(ft) == multiset(fr) + (if keep then multiset{x} else multiset{})
    ensures multiset(fs) == multiset(ft)
  {
  }

  /** Reordering a collection changes none of its counts. */
  lemma {:induction false} CountPermutation<T>(s: seq<T>, t: seq<T>, p: T -> bool)
    requires multiset(s) == multiset(t)
    ensures Count(s, p) == Count(t, p)
    decreases |s|
  {
    if |s| == 0 {
      assert |t| == |multiset(t)|;
    } else {
      var x := s[0];
      assert x in multiset(s);
      var i :| 0 <= i < |t| && t[i] == x;
      assert s == [x] + s[1..];
      assert multiset(s[1..]) == multiset(RemoveAt(t, i));
      CountPermutation(s[1..], RemoveAt(t, i), p);
      CountRemoveAt(t, i, p);
      assert Filter(s, p) == (if p(x) then [x] else []) + Filter(s[1..], p);
    }
  }

  // ---------------------------------------------------------------------
  // `sort({ field: -1 })`

  ghost predicate SortedDesc<T>(s: seq<T>, key: T -> int) {
    forall i, j :: 0 <= i < j < |s| ==> key(s[i]) >= key(s[j])
  }

  function Insert<T>(x: T, s: seq<T>, key: T -> int): (r: seq<T>)
    requires SortedDesc(s, key)
    ensures SortedDesc(r, key)
    ensures multiset(r) == multiset(s) + multiset{x}
    ensures |r| == |s| + 1
    ensures r[0] == x || (|s| > 0 && r[0] == s[0])
    decreases |s|
  {
    if |s| == 0 then [x]
    else if key(x) >= key(s[0]) then [x] + s
    else
      var rest := Insert(x, s[1..], key);
      assert s == [s[0]] + s[1..];
      [s[0]] + rest
  }

  /** The collection ordered by descending key; ties in any order, as
      MongoDB promises nothing about them. */
  function SortDescBy<T>(s: seq<T>, key: T -> int): (r: seq<T>)
    ensures SortedDesc(r, key)
    ensures multiset(r) == multiset(s)
    ensures |r| == |s|
    decreases |s|
  {
    if |s| == 0 then []
    else
      assert s == [s[0]] + s[1..];
      Insert(s[0], SortDescBy(s[1..], key), key)
  }

  /** `find(filter).sort({ key: -1 })`: exactly the matching documents,
      each as often as it occurs, in descending key order. */
  function FindSortedDesc<T>(s: seq<T>, p: T -> bool, key: T -> int): (r: seq<T>)
    ensures SortedDesc(r, key)
    ensures multiset(r) == multiset(Filter(s, p))
    ensures forall x :: x in r ==> x in s && p(x)
    ensures forall x :: x in s && p(x) ==> x in r
    ensures |r| == Count(s, p)
  {
    var found := Filter(s, p);
    var r := SortDescBy(found, key);
    assert forall x :: x in r ==> x in multiset(r);
    assert forall x :: x in found ==> x in multiset(found);
    r
  }
}

=== FILE: common.dfy ===
/** Shared vocabulary of the back end: optional values, the HTTP errors a
    controller raises, and JavaScript's `incoming || current` fallback. */
module Common {

  /** Document ids. Every comparison the controllers make goes through
      `ObjectId.toString()` or a by-value ObjectId comparison, so a string
      stands for an id. */
  type Id = string

  datatype Option<+T> = None | Some(value: T)

  /** The status a controller sets with `res.status(..)` before it throws,
      or that a guard sends. `Internal` is an error raised below the
      controller (a failed cast, a null dereference); its status is chosen by
      the error middleware, which is not part of this model. */
  datatype HttpError =
    | BadRequest    // 400
    | Unauthorized  // 401
    | Forbidden     // 403
    | NotFound      // 404
    | Internal

  datatype Result<+T> = Ok(value: T) | Err(error: HttpError)

  /** A request-body string field is falsy when it is absent or empty. */
  predicate Falsy(v: Option<string>) {
    v == None || v == Some("")
  }

  /** `incoming || current` on a string field. */
  function OrElse(incoming: Option<string>, current: string): (r: string)
    ensures Falsy(incoming) ==> r == current
    ensures !Falsy(incoming) ==> r == incoming.value && r != ""
  {
    if Falsy(incoming) then current else incoming.value
  }

  /** `incoming || current` on a field whose values are all truthy when
      present (arrays and objects: `[]` and `{}` are truthy). */
  function OrKeep<T>(incoming: Option<T>, current: T): (r: T)
    ensures incoming.None? ==> r == current
    ensures incoming.Some? ==> r == incoming.value
  {
    match incoming
    case None => current
    case Some(v) => v
  }
}

=== FILE: dashboard.dfy ===
/** The student dashboard: counts, mean score, topics learned and recent
    activity over one student's progress records
    (backend/controllers/dashboardController.js). */
module DashboardController {
  import opened Common
  import opened Collections
  import opened Accounts
  import opened Auth
  import opened Records
  import UserController

  /** `averageScore` is `None` where the source computes NaN (a quiz record
      without a score); the `toFixed(2)` rendering is not modelled. */
  datatype Stats = Stats(totalQuizzes: nat, averageScore: Option<real>, totalLessons: nat, topicsLearned: nat)

  /** The response body, without `chartData`. */
  datatype Dashboard = Dashboard(recentActivities: seq<Progress>, stats: Stats)

  /** `allProgress.slice(0, 5)`. */
  const RecentLimit: nat := 5

  function CreatedAt(p: Progress): int {
    p.createdAt
  }

  function Owns(student: Id): Progress -> bool {
    (p: Progress) => p.student == student
  }

  function OfKind(k: ProgressKind): Progress -> bool {
    (p: Progress) => p.kind == k
  }

  /** The student's records of one kind, as the collection holds them. */
  function OwnRecords(db: Db, student: Id, k: ProgressKind): seq<Progress> {
    Filter(db.progress, Both(Owns(student), OfKind(k)))
  }

  // ---------------------------------------------------------------------
  // Sum and mean of scores

  /** JavaScript `+` on a running total: NaN absorbs. */
  function Add(acc: Option<real>, v: Option<real>): Option<real> {
    if acc.Some? && v.Some? then Some(acc.value + v.value) else None
  }

  /** `reduce((acc, item) => acc + item.score, 0)`, folded from the left;
      a record with no score turns the total into NaN. */
  function ScoreSum(s: seq<Progress>): (r: Option<real>)
    ensures r.None? <==> exists i :: 0 <= i < |s| && s[i].score.None?
    decreases |s|
  {
    if |s| == 0 then Some(0.0)
    else
      var init := s[..|s| - 1];
      assert forall i :: 0 <= i < |init| ==> init[i] == s[i];
      Add(ScoreSum(init), s[|s| - 1].score)
  }

  lemma {:induction false} ScoreSumAppend(a: seq<Progress>, b: seq<Progress>)
    ensures ScoreSum(a + b) == Add(ScoreSum(a), ScoreSum(b))
    decreases |b|
  {
    if |b| == 0 {
      assert a + b == a;
    } else {
      var b' := b[..|b| - 1];
      assert (a + b)[..|a + b| - 1] == a + b';
      assert (a + b)[|a + b| - 1] == b[|b| - 1];
      ScoreSumAppend(a, b');
    }
  }

  /** Taking one record out of the total and adding it back last. */
  lemma ScoreSumRemoveAt(t: seq<Progress>, i: nat)
    requires i < |t|
    ensures ScoreSum(t) == Add(ScoreSum(RemoveAt(t, i)), t[i].score)
  {
    var a, x, b := t[..i], [t[i]], t[i + 1..];
    SplitAt(t, i);
    ScoreSumAppend(a + x, b);
    ScoreSumAppend(a, x);
    ScoreSumAppend(a, b);
    var sa, sx, sb := ScoreSum(a), ScoreSum(x), ScoreSum(b);
    assert sx == t[i].score by {
      assert x[..0] == [];
    }
    assert ScoreSum(t) == Add(Add(sa, sx), sb);
    assert ScoreSum(RemoveAt(t, i)) == Add(sa, sb);
    AddSwap(sa, sx, sb);
  }

  lemma AddSwap(a: Option<real>, b: Option<real>, c: Option<real>)
    ensures Add(Add(a, b), c) == Add(Add(a, c), b)
  {
  }

  /** The total does not depend on the order of the records. */
  lemma {:induction false} ScoreSumPermutation(s: seq<Progress>, t: seq<Progress>)
    requires multiset(s) == multiset(t)
    ensures ScoreSum(s) == ScoreSum(t)
    decreases |s|
  {
    if |s| == 0 {
      assert |t| == |multiset(t)|;
    } else {
      var x := s[0];
      assert x in multiset(s);
      var i :| 0 <= i < |t| && t[i] == x;
      assert RemoveAt(s, 0) == s[1..];
      assert multiset(s[1..]) == multiset(RemoveAt(t, i));
      ScoreSumPermutation(s[1..], RemoveAt(t, i));
      ScoreSumRemoveAt(s, 0);
      ScoreSumRemoveAt(t, i);
    }
  }

  /** Percentages add up to at most 100 per record. */
  lemma {:induction false} ScoreSumBounds(s: seq<Progress>)
    requires forall i :: 0 <= i < |s| ==> s[i].score.Some? && 0.0 <= s[i].score.value <= 100.0
    ensures ScoreSum(s).Some?
    ensures 0.0 <= ScoreSum(s).value <= 100.0 * |s| as real
    decreases |s|
  {
    if |s| > 0 {
      ScoreSumBounds(s[..|s| - 1]);
    }
  }

  /** `totalQuizzes > 0 ? sum / totalQuizzes : 0`. */
  function Mean(quizzes: seq<Progress>): (r: Option<real>)
    ensures |quizzes| == 0 ==> r == Some(0.0)
    ensures r.None? <==> exists i :: 0 <= i < |quizzes| && quizzes[i].score.None?
  {
    if |quizzes| > 0 then
      match ScoreSum(quizzes)
      case None => None
      case Some(total) => Some(total / |quizzes| as real)
    else Some(0.0)
  }

  /** The mean of percentages is a percentage. */
  lemma MeanBounds(quizzes: seq<Progress>)
    requires forall i :: 0 <= i < |quizzes| ==> quizzes[i].score.Some? && 0.0 <= quizzes[i].score.value <= 100.0
    ensures Mean(quizzes).Some? && 0.0 <= Mean(quizzes).value <= 100.0
  {
    ScoreSumBounds(quizzes);
    if |quizzes| > 0 {
      QuotientBound(ScoreSum(quizzes).value, |quizzes| as real);
    }
  }

  lemma QuotientBound(total: real, n: real)
    requires n > 0.0 && 0.0 <= total <= 100.0 * n
    ensures 0.0 <= total / n <= 100.0
  {
    var q := total / n;
    assert q * n == total;
    assert (q - 100.0) * n == total - 100.0 * n;
  }

  // ---------------------------------------------------------------------
  // The statistics

  /** `Progress.find({ student }).sort({ createdAt: -1 })`. */
  function AllProgress(db: Db, student: Id): (r: seq<Progress>)
    ensures SortedDesc(r, CreatedAt)
    ensures forall p :: p in r <==> p in db.progress && p.student == student
    ensures multiset(r) == multiset(Filter(db.progress, Owns(student)))
  {
    FindSortedDesc(db.progress, Owns(student), CreatedAt)
  }

  /** The topics of the records of one kind whose topic still exists:
      `populate` turns a deleted topic into null and the filter drops it. */
  function TopicsOf(db: Db, all: seq<Progress>, k: ProgressKind): (r: set<Id>)
    ensures forall t :: t in r <==> FindTopic(db, t).Some? && exists p :: p in all && p.kind == k && p.topic == t
  {
    set p | p in all && p.kind == k && FindTopic(db, p.topic).Some? :: p.topic
  }

  /** Topics the student has both a lesson record and a quiz record for. */
  function TopicsLearned(db: Db, student: Id): set<Id> {
    var all := AllProgress(db, student);
    TopicsOf(db, all, LessonProgress) * TopicsOf(db, all, QuizProgress)
  }

  /** A topic is learned exactly when it still exists and the student's
      records in it include a lesson and a quiz. */
  lemma TopicsLearnedIff(db: Db, student: Id)
    ensures var r := TopicsLearned(db, student); forall t :: t in r <==>
      FindTopic(db, t).Some? &&
      (exists i :: 0 <= i < |db.progress| && db.progress[i].student == student
                   && db.progress[i].kind == LessonProgress && db.progress[i].topic == t) &&
      (exists j :: 0 <= j < |db.progress| && db.progress[j].student == student
                   && db.progress[j].kind == QuizProgress && db.progress[j].topic == t)
  {
  }

  /** `allProgress.slice(0, 5)` on the newest-first list. */
  function Recent(all: seq<Progress>): (r: seq<Progress>)
    requires SortedDesc(all, CreatedAt)
    ensures |r| == if |all| < RecentLimit then |all| else RecentLimit
    ensures r == all[..|r|]
    ensures SortedDesc(r, CreatedAt)
    ensures forall p, q :: p in r && q in all && q !in r ==> p.createdAt >= q.createdAt
  {
    var r := if |all| < RecentLimit then all else all[..RecentLimit];
    forall p, q | p in r && q in all && q !in r
      ensures p.createdAt >= q.createdAt
    {
      var i :| 0 <= i < |r| && r[i] == p;
      var j :| 0 <= j < |all| && all[j] == q;
      if j < |r| {
        assert r[j] == q;
      }
    }
    r
  }

  /** Records of a student split into lessons and quizzes. */
  lemma {:induction false} KindsPartition(s: seq<Progress>)
    ensures Count(s, OfKind(QuizProgress)) + Count(s, OfKind(LessonProgress)) == |s|
    decreases |s|
  {
    if |s| > 0 {
      KindsPartition(s[1..]);
    }
  }

  /** The four counters of `getDashboardData`. Each agrees with the
      student's records as the collection holds them, whatever order the
      sort produced. */
  function StatsFor(db: Db, student: Id): (st: Stats)
    ensures st.totalQuizzes == |OwnRecords(db, student, QuizProgress)|
    ensures st.averageScore == Mean(OwnRecords(db, student, QuizProgress))
    ensures st.totalLessons == |OwnRecords(db, student, LessonProgress)|
    ensures st.topicsLearned == |TopicsLearned(db, student)|
    ensures st.totalQuizzes + st.totalLessons == Count(db.progress, Owns(student))
  {
    var all := AllProgress(db, student);
    var quizProgress := Filter(all, OfKind(QuizProgress));
    var mine := Filter(db.progress, Owns(student));
    FilterPermutation(all, mine, OfKind(QuizProgress));
    FilterFilter(db.progress, Owns(student), OfKind(QuizProgress));
    FilterFilter(db.progress, Owns(student), OfKind(LessonProgress));
    var quizzes := OwnRecords(db, student, QuizProgress);
    assert |quizProgress| == |quizzes| by {
      assert |multiset(quizProgress)| == |multiset(quizzes)|;
    }
    ScoreSumPermutation(quizProgress, quizzes);
    KindsPartition(mine);
    assert |all| == |mine| by {
      assert |multiset(all)| == |multiset(mine)|;
    }
    Stats(|quizProgress|, Mean(quizProgress), |all| - |quizProgress|, |TopicsLearned(db, student)|)
  }

  /** `recentActivities`: the student's newest records, at most five. */
  function RecentFor(db: Db, student: Id): (r: seq<Progress>)
    ensures |r| <= RecentLimit
    ensures |r| == if Count(db.progress, Owns(student)) < RecentLimit then Count(db.progress, Owns(student)) else RecentLimit
    ensures SortedDesc(r, CreatedAt)
    ensures forall p :: p in r ==> p in db.progress && p.student == student
    ensures forall p, q :: p in r && q in db.progress && q.student == student && q !in r ==>
      p.createdAt >= q.createdAt
  {
    var all := AllProgress(db, student);
    var recent := Recent(all);
    assert |all| == Count(db.progress, Owns(student)) by {
      assert |multiset(all)| == |multiset(Filter(db.progress, Owns(student)))|;
    }
    assert forall p :: p in recent ==> p in all;
    recent
  }

  /** `getDashboardData`: the recent records and the counters. */
  function GetDashboardData(db: Db, student: Id): (r: Dashboard)
    ensures r.stats.totalQuizzes + r.stats.totalLessons == Count(db.progress, Owns(student))
    ensures |r.recentActivities| ==
      if r.stats.totalQuizzes + r.stats.totalLessons < RecentLimit then r.stats.totalQuizzes + r.stats.totalLessons
      else RecentLimit
    ensures forall p :: p in r.recentActivities ==> p in db.progress && p.student == student
    ensures r.stats.averageScore == Mean(OwnRecords(db, student, QuizProgress))
    ensures r.stats.averageScore.None? ==> r.stats.totalQuizzes > 0
  {
    Dashboard(RecentFor(db, student), StatsFor(db, student))
  }

  /** With every quiz record carrying a percentage, the average is a
      number between 0 and 100. */
  lemma AverageInRange(db: Db, student: Id)
    requires ScoresInRange(db.progress)
    ensures var avg := GetDashboardData(db, student).stats.averageScore;
      avg.Some? && 0.0 <= avg.value <= 100.0
  {
    var quizzes := OwnRecords(db, student, QuizProgress);
    forall i | 0 <= i < |quizzes|
      ensures quizzes[i].score.Some? && 0.0 <= quizzes[i].score.value <= 100.0
    {
      assert quizzes[i] in quizzes;
      var k :| 0 <= k < |db.progress| && db.progress[k] == quizzes[i];
    }
    MeanBounds(quizzes);
  }

  // ---------------------------------------------------------------------
  // Handlers and routes

  /** `getParentTeacherDashboard`: only a student in the caller's
      `children` can be viewed. */
  function ParentTeacherDashboard(db: Db, actor: Account, studentId: Id): (r: Result<Dashboard>)
    ensures r.Err? <==> studentId !in actor.children
    ensures r.Err? ==> r.error == Forbidden
    ensures r.Ok? ==> r.value == GetDashboardData(db, studentId)
  {
    if studentId in actor.children then Ok(GetDashboardData(db, studentId)) else Err(Forbidden)
  }

  /** `GET /api/dashboard/student`: `protect`, `studentOnly`; the student
      sees their own records. */
  function StudentRoute(auth: Authentication, db: Db): (r: Result<Dashboard>)
    ensures r.Ok? <==> auth.Authenticated? && auth.user.Some? && auth.user.value.role == Student
    ensures r.Ok? ==> r.value == GetDashboardData(db, auth.user.value.id)
  {
    match Authorize(auth, StudentOnly)
    case Err(e) => Err(e)
    case Ok(u) =>
      assert u.role == Student;
      Ok(GetDashboardData(db, u.id))
  }

  /** `GET /api/dashboard/parent-teacher/:studentId`: `protect`,
      `parentOrTeacher`, then the child check. */
  function ParentTeacherRoute(auth: Authentication, db: Db, studentId: Id): (r: Result<Dashboard>)
    ensures r.Ok? <==>
      auth.Authenticated? && auth.user.Some? && auth.user.value.role in Admits(ParentOrTeacher)
      && studentId in auth.user.value.children
    ensures auth.Authenticated? && auth.user.Some? && auth.user.value.role == Student ==> r == Err(Forbidden)
    ensures r.Ok? ==> r.value == GetDashboardData(db, studentId)
    ensures r == Err(Unauthorized) <==> !auth.Authenticated?
    ensures auth.Authenticated? && auth.user.Some? && auth.user.value.role in Admits(ParentOrTeacher) ==>
      r == ParentTeacherDashboard(db, auth.user.value, studentId)
  {
    match Authorize(auth, ParentOrTeacher)
    case Err(e) => Err(e)
    case Ok(actor) =>
      assert actor.role != Student;
      ParentTeacherDashboard(db, actor, studentId)
  }

  /** Once a parent or teacher has linked a student by code, that student's
      dashboard is open to them. */
  lemma LinkOpensDashboard(users: Users, callerId: Id, code: string, db: Db)
    requires UserController.LinkStudent(users, callerId, code).Ok?
    ensures var users' := UserController.LinkStudent(users, callerId, code).value;
      var c := FindById(users, callerId).value;
      var s := FindFirst(users, (a: Account) => a.studentCode == Some(code)).value;
      ParentTeacherDashboard(db, users'[c], users[s].id).Ok?
  {
    var users' := UserController.LinkStudent(users, callerId, code).value;
    var c := FindById(users, callerId).value;
    var s := FindFirst(users, (a: Account) => a.studentCode == Some(code)).value;
    assert users'[c].children == users[c].children + [users[s].id];
  }
}

=== FILE: lessons.dfy ===
/** Lesson completion, the completion query, and the lesson store effects
    (backend/controllers/lessonController.js). */
module LessonController {
  import opened Common
  import opened Collections
  import opened Accounts
  import opened Auth
  import opened Records

  /** What `lesson.save()` accepts: the trimmed title and the content are
      required, and so is the topic. */
  predicate LessonValid(l: Lesson) {
    l.title != "" && l.content != "" && l.topic != ""
  }

  /** `Progress.findOne({ student, item })`: a record of either kind. */
  predicate IsRecordOf(p: Progress, student: Id, item: Id) {
    p.student == student && p.item == item
  }

  predicate HasRecordFor(progress: seq<Progress>, student: Id, item: Id) {
    exists k :: 0 <= k < |progress| && IsRecordOf(progress[k], student, item)
  }

  /** The record a first completion creates. */
  function CompletionRecord(student: Id, lesson: Lesson, now: int): Progress {
    Progress(student, LessonProgress, lesson.id, lesson.topic, None, [], now, now)
  }

  /** `markLessonAsComplete`: `Ok(true, db')` when a record was created,
      `Ok(false, db)` when one already existed. */
  function MarkLessonAsComplete(db: Db, student: Id, lessonId: Id, now: int): (r: Result<(bool, Db)>)
    ensures r.Err? <==> FindLesson(db, lessonId).None?
    ensures r.Err? ==> r.error == NotFound
    ensures r.Ok? && !r.value.0 ==> r.value.1 == db && HasRecordFor(db.progress, student, lessonId)
    ensures r.Ok? && r.value.0 ==>
      FindLesson(db, lessonId).Some? && !HasRecordFor(db.progress, student, lessonId) &&
      var lesson := db.lessons[FindLesson(db, lessonId).value];
      |r.value.1.progress| == |db.progress| + 1 &&
      var p := r.value.1.progress[|db.progress|];
      r.value.1 == db.(progress := db.progress + [p]) &&
      p.student == student && p.kind == LessonProgress && p.item == lessonId && p.topic == lesson.topic &&
      p.score.None? && p.answers == [] && p.createdAt == now
  {
    match FindLesson(db, lessonId)
    case None => Err(NotFound)
    case Some(i) =>
      if HasRecordFor(db.progress, student, lessonId) then Ok((false, db))
      else Ok((true, db.(progress := db.progress + [CompletionRecord(student, db.lessons[i], now)])))
  }

  /** `checkLessonCompletionStatus`: whether a lesson-kind record exists. */
  function CheckLessonCompletionStatus(db: Db, student: Id, lessonId: Id): (r: Result<bool>)
    ensures r.Err? <==> FindLesson(db, lessonId).None?
    ensures r.Err? ==> r.error == NotFound
    ensures r.Ok? ==> (r.value <==>
      exists k :: 0 <= k < |db.progress| && IsRecordOf(db.progress[k], student, lessonId) && db.progress[k].kind == LessonProgress)
  {
    match FindLesson(db, lessonId)
    case None => Err(NotFound)
    case Some(_) =>
      Ok(FindFirst(db.progress, (p: Progress) => IsRecordOf(p, student, lessonId) && p.kind == LessonProgress).Some?)
  }

  /** Completing a lesson twice is completing it once: the second call
      finds the first call's record and changes nothing. */
  lemma MarkTwiceIsMarkOnce(db: Db, student: Id, lessonId: Id, now: int, later: int)
    ensures var r1 := MarkLessonAsComplete(db, student, lessonId, now);
      r1.Ok? ==> MarkLessonAsComplete(r1.value.1, student, lessonId, later) == Ok((false, r1.value.1))
  {
    var r1 := MarkLessonAsComplete(db, student, lessonId, now);
    if r1.Ok? && r1.value.0 {
      var db1 := r1.value.1;
      assert IsRecordOf(db1.progress[|db.progress|], student, lessonId);
    }
  }

  /** After a completion the status reads true, provided no quiz record
      shares the lesson's id (distinct document ids guarantee this). */
  lemma MarkThenStatus(db: Db, student: Id, lessonId: Id, now: int)
    requires forall k :: 0 <= k < |db.progress| && db.progress[k].item == lessonId ==> db.progress[k].kind == LessonProgress
    ensures var r1 := MarkLessonAsComplete(db, student, lessonId, now);
      r1.Ok? ==> CheckLessonCompletionStatus(r1.value.1, student, lessonId) == Ok(true)
  {
    var r1 := MarkLessonAsComplete(db, student, lessonId, now);
    if r1.Ok? {
      var db1 := r1.value.1;
      if r1.value.0 {
        assert IsRecordOf(db1.progress[|db.progress|], student, lessonId);
      } else {
        var k :| 0 <= k < |db.progress| && IsRecordOf(db.progress[k], student, lessonId);
      }
    }
  }

  /** A quiz record filed under the lesson's id stops a completion without
      making the status true: the two checks look at different things. The
      program's own writes never build such a store, since a quiz record
      carries a quiz's id and ids are distinct ObjectIds; the store here is
      hand-made to show that the two filters differ. */
  lemma MarkAndStatusCanDisagree()
    ensures var lesson := Lesson("L", "Title", "Body", "T", "teacher");
      var stray := Progress("s", QuizProgress, "L", "T", Some(50.0), [], 0, 0);
      var db := Db([], [lesson], [], [stray], [], []);
      MarkLessonAsComplete(db, "s", "L", 1) == Ok((false, db)) &&
      CheckLessonCompletionStatus(db, "s", "L") == Ok(false)
  {
    var lesson := Lesson("L", "Title", "Body", "T", "teacher");
    var stray := Progress("s", QuizProgress, "L", "T", Some(50.0), [], 0, 0);
    var db := Db([], [lesson], [], [stray], [], []);
    assert FindLesson(db, "L") == Some(0);
    assert IsRecordOf(db.progress[0], "s", "L");
  }

  /** `deleteLesson`: removes the lesson and every progress record whose
      item is that lesson, of any student and kind. */
  function DeleteLesson(db: Db, id: Id): (r: Result<Db>)
    ensures r.Err? <==> FindLesson(db, id).None?
    ensures r.Err? ==> r.error == NotFound
    ensures r.Ok? ==>
      FindLesson(db, id).Some? &&
      r.value.lessons == RemoveAt(db.lessons, FindLesson(db, id).value) &&
      r.value.topics == db.topics && r.value.quizzes == db.quizzes &&
      r.value.rewards == db.rewards && r.value.grants == db.grants &&
      (forall p :: p in r.value.progress <==> p in db.progress && p.item != id)
  {
    match FindLesson(db, id)
    case None => Err(NotFound)
    case Some(i) =>
      Ok(db.(lessons := RemoveAt(db.lessons, i), progress := RemoveWhere(db.progress, (p: Progress) => p.item == id)))
  }

  /** After a lesson is deleted, nobody holds a completion of it. */
  lemma DeleteLessonClearsCompletion(db: Db, id: Id, student: Id)
    requires DeleteLesson(db, id).Ok?
    ensures !HasRecordFor(DeleteLesson(db, id).value.progress, student, id)
  {
  }

  /** The three assignments of `updateLesson`, with the title setter. */
  function EditLesson(prev: Lesson, title: Option<string>, content: Option<string>, topic: Option<Id>): Lesson {
    prev.(title := Trim(OrElse(title, prev.title)), content := OrElse(content, prev.content), topic := OrElse(topic, prev.topic))
  }

  /** Applying an edit to its own result changes nothing. */
  lemma EditLessonStable(prev: Lesson, title: Option<string>, content: Option<string>, topic: Option<Id>)
    ensures var l := EditLesson(prev, title, content, topic); EditLesson(l, title, content, topic) == l
  {
    var l := EditLesson(prev, title, content, topic);
    TrimIdempotent(OrElse(title, prev.title));
    assert Trim(OrElse(title, l.title)) == l.title;
  }

  /** `updateLesson`: a falsy incoming field keeps the stored value; the
      title is trimmed; the result is validated on save. */
  function UpdateLesson(db: Db, id: Id, title: Option<string>, content: Option<string>, topic: Option<Id>): (r: Result<Db>)
    ensures r == Err(NotFound) <==> FindLesson(db, id).None?
    ensures r.Err? && r.error != NotFound ==> r.error == Internal
    ensures FindLesson(db, id).Some? ==>
      (r.Ok? <==> LessonValid(EditLesson(db.lessons[FindLesson(db, id).value], title, content, topic)))
    ensures FindLesson(db, id).Some? ==>
      var prev := db.lessons[FindLesson(db, id).value];
      LessonValid(prev) && Trim(prev.title) == prev.title && (Falsy(title) || Trim(title.value) != "")
      ==> r.Ok?
    ensures r.Ok? ==>
      FindLesson(db, id).Some? &&
      var i := FindLesson(db, id).value;
      var prev := db.lessons[i];
      |r.value.lessons| == |db.lessons| &&
      var l := r.value.lessons[i];
      r.value == db.(lessons := db.lessons[i := l]) &&
      l.id == id && l.author == prev.author && LessonValid(l) &&
      l.title == Trim(if Falsy(title) then prev.title else title.value) &&
      (if Falsy(content) then l.content == prev.content else Some(l.content) == content) &&
      (if Falsy(topic) then l.topic == prev.topic else Some(l.topic) == topic)
  {
    match FindLesson(db, id)
    case None => Err(NotFound)
    case Some(i) =>
      var l := EditLesson(db.lessons[i], title, content, topic);
      if LessonValid(l) then Ok(db.(lessons := db.lessons[i := l])) else Err(Internal)
  }

  /** A title of blanks is truthy, so it replaces the stored one, and then
      trims to the empty string the validator refuses. */
  lemma BlankTitleIsRefused(db: Db, id: Id)
    requires FindLesson(db, id).Some?
    ensures UpdateLesson(db, id, Some("  "), None, None) == Err(Internal)
  {
    BlanksTrimAway();
    var i := FindLesson(db, id).value;
    assert EditLesson(db.lessons[i], Some("  "), None, None).title == "";
  }

  /** An update that sends nothing leaves a saved lesson as it was. */
  lemma UpdateLessonEmptyIsIdentity(db: Db, id: Id)
    requires FindLesson(db, id).Some?
    requires var l := db.lessons[FindLesson(db, id).value]; LessonValid(l) && Trim(l.title) == l.title
    ensures UpdateLesson(db, id, None, None, None) == Ok(db)
  {
    var i := FindLesson(db, id).value;
    UpdateSelf(db.lessons, i);
  }

  /** Sending the same update twice changes nothing the first did not. */
  lemma UpdateLessonIdempotent(db: Db, id: Id, title: Option<string>, content: Option<string>, topic: Option<Id>)
    ensures var r := UpdateLesson(db, id, title, content, topic);
      r.Ok? ==> UpdateLesson(r.value, id, title, content, topic) == r
  {
    if UpdateLesson(db, id, title, content, topic).Err? {
      return;
    }
    var i := FindLesson(db, id).value;
    var l := EditLesson(db.lessons[i], title, content, topic);
    var db' := db.(lessons := db.lessons[i := l]);
    assert UpdateLesson(db, id, title, content, topic) == Ok(db');
    FindFirstSame(db.lessons, db'.lessons, (x: Lesson) => x.id == id);
    EditLessonStable(db.lessons[i], title, content, topic);
    UpdateSelf(db'.lessons, i);
  }

  // ---------------------------------------------------------------------
  // Routes (backend/routes/lessonRoutes.js)

  /** `POST /:id/complete`: `protect`, `studentOnly`. */
  function MarkCompleteRoute(auth: Authentication, db: Db, lessonId: Id, now: int): (r: Result<(bool, Db)>)
    ensures r.Ok? ==>
      auth.Authenticated? && auth.user.Some? && auth.user.value.role == Student &&
      r == MarkLessonAsComplete(db, auth.user.value.id, lessonId, now)
    ensures auth.Authenticated? && auth.user.Some? && auth.user.value.role != Student ==> r == Err(Forbidden)
    ensures r == Err(Unauthorized) <==> !auth.Authenticated?
    ensures auth.Authenticated? && auth.user.Some? && auth.user.value.role in Admits(StudentOnly) ==>
      r == MarkLessonAsComplete(db, auth.user.value.id, lessonId, now)
  {
    match Authorize(auth, StudentOnly)
    case Err(e) => Err(e)
    case Ok(u) =>
      assert u.role == Student;
      MarkLessonAsComplete(db, u.id, lessonId, now)
  }

  /** `GET /:id/status`: `protect`, `studentOnly`. */
  function StatusRoute(auth: Authentication, db: Db, lessonId: Id): (r: Result<bool>)
    ensures r.Ok? ==>
      auth.Authenticated? && auth.user.Some? && auth.user.value.role == Student &&
      r == CheckLessonCompletionStatus(db, auth.user.value.id, lessonId)
    ensures auth.Authenticated? && auth.user.Some? && auth.user.value.role != Student ==> r == Err(Forbidden)
    ensures r == Err(Unauthorized) <==> !auth.Authenticated?
    ensures auth.Authenticated? && auth.user.Some? && auth.user.value.role in Admits(StudentOnly) ==>
      r == CheckLessonCompletionStatus(db, auth.user.value.id, lessonId)
  {
    match Authorize(auth, StudentOnly)
    case Err(e) => Err(e)
    case Ok(u) =>
      assert u.role == Student;
      CheckLessonCompletionStatus(db, u.id, lessonId)
  }

  /** `DELETE /:id`: `protect`, `adminOrTeacher`. */
  function DeleteLessonRoute(auth: Authentication, db: Db, id: Id): (r: Result<Db>)
    ensures r.Ok? ==> auth.Authenticated? && auth.user.Some? && auth.user.value.role in {Admin, Teacher}
    ensures auth.Authenticated? && auth.user.Some? && auth.user.value.role in {Student, Parent} ==> r == Err(Forbidden)
    ensures r == Err(Unauthorized) <==> !auth.Authenticated?
    ensures auth.Authenticated? && auth.user.Some? && auth.user.value.role in Admits(AdminOrTeacher) ==>
      r == DeleteLesson(db, id)
  {
    match Authorize(auth, AdminOrTeacher)
    case Err(e) => Err(e)
    case Ok(actor) =>
      assert actor.role == Admin || actor.role == Teacher;
      DeleteLesson(db, id)
  }

  /** `PUT /:id`: `protect`, `adminOrTeacher`. */
  function UpdateLessonRoute(auth: Authentication, db: Db, id: Id, title: Option<string>, content: Option<string>, topic: Option<Id>): (r: Result<Db>)
    ensures r.Ok? ==> auth.Authenticated? && auth.user.Some? && auth.user.value.role in {Admin, Teacher}
    ensures auth.Authenticated? && auth.user.Some? && auth.user.value.role in {Student, Parent} ==> r == Err(Forbidden)
    ensures r == Err(Unauthorized) <==> !auth.Authenticated?
    ensures auth.Authenticated? && auth.user.Some? && auth.user.value.role in Admits(AdminOrTeacher) ==>
      r == UpdateLesson(db, id, title, content, topic)
  {
    match Authorize(auth, AdminOrTeacher)
    case Err(e) => Err(e)
    case Ok(actor) =>
      assert actor.role == Admin || actor.role == Teacher;
      UpdateLesson(db, id, title, content, topic)
  }
}

=== FILE: quizzes.dfy ===
/** Quiz grading, the progress upsert, the badge rules and the quiz store
    effects (backend/controllers/quizController.js). */
module QuizController {
  import opened Common
  import opened Collections
  import opened Accounts
  import opened Auth
  import opened Records

  // ---------------------------------------------------------------------
  // Grading

  /** The submitted `answers` object, keyed by question id. */
  type Answers = map<Id, string>

  /** `selected === q.correctAnswer`: an absent answer is `undefined` and
      equals no stored answer. */
  predicate IsCorrect(q: Question, answers: Answers) {
    q.id in answers && answers[q.id] == q.correctAnswer
  }

  function Correctness(answers: Answers): Question -> bool {
    q => IsCorrect(q, answers)
  }

  function Lookup(answers: Answers, id: Id): Option<string> {
    if id in answers then Some(answers[id]) else None
  }

  const NotAnswered: string := "Tidak dijawab"

  /** The per-question detail list `submitQuiz` stores: one entry per
      question, in quiz order. */
  function Details(qs: seq<Question>, answers: Answers): (r: seq<AnswerDetail>)
    ensures |r| == |qs|
    ensures forall i :: 0 <= i < |qs| ==>
      r[i].questionText == qs[i].questionText && (r[i].isCorrect <==> IsCorrect(qs[i], answers))
    ensures forall i :: 0 <= i < |qs| ==>
      if qs[i].id in answers && answers[qs[i].id] != "" then r[i].selectedAnswer == answers[qs[i].id]
      else r[i].selectedAnswer == NotAnswered
  {
    seq(|qs|, i requires 0 <= i < |qs| =>
      AnswerDetail(qs[i].questionText, OrElse(Lookup(answers, qs[i].id), NotAnswered), IsCorrect(qs[i], answers)))
  }

  /** The number of questions answered correctly. */
  function CorrectCount(qs: seq<Question>, answers: Answers): nat {
    Count(qs, Correctness(answers))
  }

  /** The grading pass of `submitQuiz`: one walk over the questions that
      bumps a counter and builds the detail list. */
  method Grade(qs: seq<Question>, answers: Answers) returns (correct: nat, detailed: seq<AnswerDetail>)
    ensures correct == CorrectCount(qs, answers)
    ensures detailed == Details(qs, answers)
  {
    correct := 0;
    detailed := [];
    var i := 0;
    while i < |qs|
      invariant i <= |qs|
      invariant correct == CorrectCount(qs[..i], answers)
      invariant detailed == Details(qs[..i], answers)
    {
      var q := qs[i];
      var selected := Lookup(answers, q.id);
      var isCorrect := selected == Some(q.correctAnswer);
      if isCorrect {
        correct := correct + 1;
      }
      detailed := detailed + [AnswerDetail(q.questionText, OrElse(selected, NotAnswered), isCorrect)];
      assert qs[..i + 1] == qs[..i] + [q];
      CountSnoc(qs[..i], q, Correctness(answers));
      DetailsSnoc(qs[..i], q, answers);
      i := i + 1;
    }
    assert qs[..i] == qs;
  }

  /** Grading one more question appends its entry to the detail list. */
  lemma DetailsSnoc(qs: seq<Question>, q: Question, answers: Answers)
    ensures Details(qs + [q], answers) ==
      Details(qs, answers) + [AnswerDetail(q.questionText, OrElse(Lookup(answers, q.id), NotAnswered), IsCorrect(q, answers))]
  {
    var qs' := qs + [q];
    assert forall i :: 0 <= i < |qs| ==> qs'[i] == qs[i];
  }

  /** The correct count never exceeds the question count, reaches it
      exactly when every question is answered correctly, and a question
      left unanswered is never counted. */
  lemma CorrectCountBounds(qs: seq<Question>, answers: Answers)
    ensures CorrectCount(qs, answers) <= |qs|
    ensures CorrectCount(qs, answers) == |qs| <==> forall i :: 0 <= i < |qs| ==> IsCorrect(qs[i], answers)
    ensures (exists i :: 0 <= i < |qs| && qs[i].id !in answers) ==> CorrectCount(qs, answers) < |qs|
  {
    CountFull(qs, Correctness(answers));
  }

  /** `(correct / total) * 100`, for a quiz with at least one question. */
  function Percent(correct: nat, total: nat): (s: real)
    requires 0 < total
    ensures correct <= total ==> 0.0 <= s <= 100.0
    ensures s == 100.0 <==> correct == total
  {
    var ratio := correct as real / total as real;
    assert ratio * (total as real) == correct as real;
    ratio * 100.0
  }

  // ---------------------------------------------------------------------
  // The progress upsert

  /** The record `submitQuiz` looks up: this student, this quiz, and the
      topic the quiz has now. */
  predicate IsAttempt(p: Progress, student: Id, quiz: Quiz) {
    p.kind == QuizProgress && p.student == student && p.item == quiz.id && p.topic == quiz.topic
  }

  function AttemptOf(student: Id, quiz: Quiz): Progress -> bool {
    p => IsAttempt(p, student, quiz)
  }

  /** `existingProgress.score || 0`. */
  function PriorBest(p: Progress): real {
    if p.score.Some? then p.score.value else 0.0
  }

  function Max(a: real, b: real): (m: real)
    ensures m >= a && m >= b && (m == a || m == b)
  {
    if a >= b then a else b
  }

  /** An existing record keeps the better score and takes this attempt's
      answers; without one, exactly one record is created. */
  function RecordAttempt(progress: seq<Progress>, student: Id, quiz: Quiz, score: real, details: seq<AnswerDetail>, now: int): (r: seq<Progress>)
    ensures (forall j :: 0 <= j < |progress| ==> !IsAttempt(progress[j], student, quiz)) ==>
      r == progress + [Progress(student, QuizProgress, quiz.id, quiz.topic, Some(score), details, now, now)]
    ensures (exists j :: 0 <= j < |progress| && IsAttempt(progress[j], student, quiz)) ==>
      exists j :: 0 <= j < |progress| && IsAttempt(progress[j], student, quiz) &&
        r == progress[j := progress[j].(score := Some(Max(PriorBest(progress[j]), score)), answers := details, updatedAt := now)]
  {
    match FindFirst(progress, AttemptOf(student, quiz))
    case None =>
      progress + [Progress(student, QuizProgress, quiz.id, quiz.topic, Some(score), details, now, now)]
    case Some(j) =>
      progress[j := progress[j].(score := Some(Max(PriorBest(progress[j]), score)), answers := details, updatedAt := now)]
  }

  /** The upsert leaves a record for the key and touches no record filed
      under another key. */
  lemma RecordAttemptTouchesOnlyKey(progress: seq<Progress>, student: Id, quiz: Quiz, score: real, details: seq<AnswerDetail>, now: int)
    ensures var r := RecordAttempt(progress, student, quiz, score, details, now);
      |progress| <= |r| &&
      (forall k :: 0 <= k < |progress| && !IsAttempt(progress[k], student, quiz) ==> r[k] == progress[k]) &&
      exists j :: 0 <= j < |r| && IsAttempt(r[j], student, quiz)
  {
    var r := RecordAttempt(progress, student, quiz, score, details, now);
    match FindFirst(progress, AttemptOf(student, quiz))
    case None =>
      assert IsAttempt(r[|progress|], student, quiz);
    case Some(j) =>
      assert IsAttempt(r[j], student, quiz);
  }

  /** After the upsert there is exactly one record for the key. It holds
      this attempt's answers and a score no lower than the fresh one or
      than the best before; every other record is untouched. */
  lemma RecordAttemptKeepsOneRecord(progress: seq<Progress>, student: Id, quiz: Quiz, score: real, details: seq<AnswerDetail>, now: int)
    requires AttemptsUnique(progress)
    ensures var r := RecordAttempt(progress, student, quiz, score, details, now);
      AttemptsUnique(r) &&
      exists j :: 0 <= j < |r| && IsAttempt(r[j], student, quiz) && r[j].answers == details && r[j].updatedAt == now &&
        r[j].score.Some? && r[j].score.value >= score &&
        (j < |progress| ==> r[j].score.value >= PriorBest(progress[j])) &&
        (forall k :: 0 <= k < |r| && k != j ==> !IsAttempt(r[k], student, quiz) && r[k] == progress[k])
  {
    var r := RecordAttempt(progress, student, quiz, score, details, now);
    match FindFirst(progress, AttemptOf(student, quiz))
    case None =>
      var j := |progress|;
      assert r[j].score.value == score;
      forall a, b | 0 <= a < b < |r|
        ensures !SameAttemptKey(r[a], r[b])
      {
        if b == j {
          assert !IsAttempt(progress[a], student, quiz);
        }
      }
      assert forall k :: 0 <= k < |r| && k != j ==> r[k] == progress[k];
    case Some(j) =>
      forall a, b | 0 <= a < b < |r|
        ensures !SameAttemptKey(r[a], r[b])
      {
        assert SameAttemptKey(r[a], r[b]) ==> SameAttemptKey(progress[a], progress[b]);
      }
      forall k | 0 <= k < |r| && k != j
        ensures !IsAttempt(r[k], student, quiz) && r[k] == progress[k]
      {
        assert !(SameAttemptKey(progress[j], progress[k]) || SameAttemptKey(progress[k], progress[j]));
      }
  }

  // ---------------------------------------------------------------------
  // The badge rules

  predicate IsPerfectScoreReward(w: Reward) {
    "type" in w.criteria && w.criteria["type"] == "perfect_score"
  }

  predicate IsTopicReward(w: Reward, topic: Id) {
    "type" in w.criteria && w.criteria["type"] == "topic_completion" &&
    "topicId" in w.criteria && w.criteria["topicId"] == topic
  }

  function TopicRewardOf(topic: Id): Reward -> bool {
    w => IsTopicReward(w, topic)
  }

  /** `Quiz.countDocuments({ topic })`. */
  function QuizzesInTopic(quizzes: seq<Quiz>, topic: Id): nat {
    Count(quizzes, (q: Quiz) => q.topic == topic)
  }

  predicate IsTopicAttempt(p: Progress, student: Id, topic: Id) {
    p.student == student && p.topic == topic && p.kind == QuizProgress
  }

  function TopicAttemptOf(student: Id, topic: Id): Progress -> bool {
    p => IsTopicAttempt(p, student, topic)
  }

  /** The student's quiz records filed under `topic`, whatever quiz they
      belong to and whether or not it still exists. */
  function AttemptsInTopic(progress: seq<Progress>, student: Id, topic: Id): nat {
    Count(progress, TopicAttemptOf(student, topic))
  }

  /** One grant per earned reward, in order. */
  function Earned(student: Id, ws: seq<Reward>, now: int): (r: seq<Grant>)
    ensures |r| == |ws|
    ensures forall i :: 0 <= i < |ws| ==> r[i].student == student && r[i].reward == ws[i].id
  {
    seq(|ws|, i requires 0 <= i < |ws| => Grant(student, ws[i].id, now))
  }

  /** `w` is the reward `Reward.findOne(filter)` returns for `p`: the first
      one in store order that matches. */
  predicate FirstMatch(rewards: seq<Reward>, p: Reward -> bool, w: Reward) {
    FindFirst(rewards, p).Some? && w == rewards[FindFirst(rewards, p).value]
  }

  /** `Reward.findOne(filter)` followed by the already-rewarded check. */
  function GrantFirst(rewards: seq<Reward>, grants: seq<Grant>, student: Id, p: Reward -> bool, now: int): (r: (seq<Grant>, seq<Reward>))
    ensures |r.1| <= 1
    ensures r.0 == grants + Earned(student, r.1, now)
    ensures r.1 != [] <==>
      FindFirst(rewards, p).Some? && !HasGrant(grants, student, rewards[FindFirst(rewards, p).value].id)
    ensures r.1 != [] ==> r.1[0] == rewards[FindFirst(rewards, p).value]
    ensures GrantsUnique(grants) ==> GrantsUnique(r.0)
  {
    match FindFirst(rewards, p)
    case None => (grants, [])
    case Some(i) =>
      if HasGrant(grants, student, rewards[i].id) then (grants, [])
      else
        var g := grants + [Grant(student, rewards[i].id, now)];
        assert Earned(student, [rewards[i]], now) == [Grant(student, rewards[i].id, now)];
        assert forall j :: 0 <= j < |grants| ==> g[j] == grants[j];
        (g, [rewards[i]])
  }

  /** The perfect-score rule fires: a perfect fresh score, a reward whose
      criteria type is `perfect_score`, and no grant of it yet. */
  predicate PerfectRuleFires(db: Db, student: Id, score: real) {
    score == 100.0 &&
    FindFirst(db.rewards, IsPerfectScoreReward).Some? &&
    !HasGrant(db.grants, student, db.rewards[FindFirst(db.rewards, IsPerfectScoreReward).value].id)
  }

  /** The topic rule fires: the topic has quizzes, the student's quiz
      records for it match their number exactly, a completion reward for it
      exists, and it is not held yet. */
  predicate TopicRuleFires(db: Db, student: Id, topic: Id) {
    0 < QuizzesInTopic(db.quizzes, topic) == AttemptsInTopic(db.progress, student, topic) &&
    FindFirst(db.rewards, TopicRewardOf(topic)).Some? &&
    !HasGrant(db.grants, student, db.rewards[FindFirst(db.rewards, TopicRewardOf(topic)).value].id)
  }

  /** A grant list extended by `Earned` holds a reward exactly when the
      old list held it or it is among the rewards earned. */
  lemma HasGrantEarned(grants: seq<Grant>, student: Id, ws: seq<Reward>, now: int, id: Id)
    ensures HasGrant(grants + Earned(student, ws, now), student, id) <==>
      HasGrant(grants, student, id) || exists k :: 0 <= k < |ws| && ws[k].id == id
  {
    var g := grants + Earned(student, ws, now);
    if HasGrant(g, student, id) {
      var m :| 0 <= m < |g| && g[m].student == student && g[m].reward == id;
      if m >= |grants| {
        assert ws[m - |grants|].id == id;
      } else {
        assert grants[m] == g[m];
      }
    }
    if HasGrant(grants, student, id) {
      var m :| 0 <= m < |grants| && grants[m].student == student && grants[m].reward == id;
      assert g[m] == grants[m];
    }
    if exists k :: 0 <= k < |ws| && ws[k].id == id {
      var k :| 0 <= k < |ws| && ws[k].id == id;
      assert g[|grants| + k].reward == id;
    }
  }

  /** Lines 52-59: the perfect-score rule on the current grants. */
  function PerfectRule(db: Db, student: Id, score: real, now: int): (r: (seq<Grant>, seq<Reward>))
    ensures r.0 == db.grants + Earned(student, r.1, now)
    ensures |r.1| <= 1
    ensures r.1 != [] <==> PerfectRuleFires(db, student, score)
    ensures forall w :: w in r.1 ==> IsPerfectScoreReward(w) && w in db.rewards && !HasGrant(db.grants, student, w.id)
    ensures r.1 != [] ==> FirstMatch(db.rewards, IsPerfectScoreReward, r.1[0])
    ensures GrantsUnique(db.grants) ==> GrantsUnique(r.0)
  {
    if score == 100.0 then GrantFirst(db.rewards, db.grants, student, IsPerfectScoreReward, now) else (db.grants, [])
  }

  /** Lines 60-75: the topic-completion rule, judged against `grants`. */
  function TopicRule(db: Db, grants: seq<Grant>, student: Id, topic: Id, now: int): (r: (seq<Grant>, seq<Reward>))
    ensures r.0 == grants + Earned(student, r.1, now)
    ensures |r.1| <= 1
    ensures r.1 != [] <==> TopicRuleFires(db.(grants := grants), student, topic)
    ensures forall w :: w in r.1 ==> IsTopicReward(w, topic) && w in db.rewards && !HasGrant(grants, student, w.id)
    ensures r.1 != [] ==> FirstMatch(db.rewards, TopicRewardOf(topic), r.1[0])
    ensures GrantsUnique(grants) ==> GrantsUnique(r.0)
  {
    if 0 < QuizzesInTopic(db.quizzes, topic) == AttemptsInTopic(db.progress, student, topic)
    then GrantFirst(db.rewards, grants, student, TopicRewardOf(topic), now)
    else (grants, [])
  }

  /** A perfect-score grant never stands in the way of the topic rule when
      reward ids are distinct, and extra grants only ever stop it. */
  lemma TopicRuleAfterPerfect(db: Db, student: Id, score: real, topic: Id, now: int)
    ensures var first := PerfectRule(db, student, score, now);
      TopicRuleFires(db.(grants := first.0), student, topic) ==> TopicRuleFires(db, student, topic)
    ensures var first := PerfectRule(db, student, score, now);
      RewardIdsUnique(db.rewards) && TopicRuleFires(db, student, topic) ==> TopicRuleFires(db.(grants := first.0), student, topic)
  {
    var first := PerfectRule(db, student, score, now);
    match FindFirst(db.rewards, TopicRewardOf(topic))
    case None =>
    case Some(i) =>
      var w := db.rewards[i];
      HasGrantEarned(db.grants, student, first.1, now, w.id);
      if RewardIdsUnique(db.rewards) && first.1 != [] {
        var iv := FindFirst(db.rewards, IsPerfectScoreReward).value;
        assert IsPerfectScoreReward(db.rewards[iv]) && !IsTopicReward(db.rewards[iv], topic);
        assert iv != i;
      }
  }

  /** `checkAndAwardBadges`: the new grants and the rewards they are for.
      The topic rule sees the grant the perfect-score rule may just have
      made. */
  function CheckAndAwardBadges(db: Db, student: Id, score: real, topic: Id, now: int): (r: (seq<Grant>, seq<Reward>))
    ensures r.0 == db.grants + Earned(student, r.1, now)
    ensures |r.1| <= 2
    ensures forall w :: w in r.1 ==> w in db.rewards && !HasGrant(db.grants, student, w.id)
    ensures (exists w :: w in r.1 && IsPerfectScoreReward(w)) <==> PerfectRuleFires(db, student, score)
    ensures (exists w :: w in r.1 && IsTopicReward(w, topic)) ==> TopicRuleFires(db, student, topic)
    ensures RewardIdsUnique(db.rewards) && TopicRuleFires(db, student, topic) ==>
      exists w :: w in r.1 && IsTopicReward(w, topic)
    ensures |r.1| == 2 ==> IsPerfectScoreReward(r.1[0]) && IsTopicReward(r.1[1], topic)
    ensures forall w :: w in r.1 ==>
      FirstMatch(db.rewards, IsPerfectScoreReward, w) || FirstMatch(db.rewards, TopicRewardOf(topic), w)
    ensures GrantsUnique(db.grants) ==> GrantsUnique(r.0)
  {
    var first := PerfectRule(db, student, score, now);
    var second := TopicRule(db, first.0, student, topic, now);
    BadgeRulesFire(db, student, score, topic, now);
    BadgeRulesCombine(db, student, now, first, second);
    BadgePicksCombine(db.rewards, topic, first.1, second.1);
    (second.0, first.1 + second.1)
  }

  /** How the two rules' outputs add up. */
  lemma BadgeRulesCombine(db: Db, student: Id, now: int, first: (seq<Grant>, seq<Reward>), second: (seq<Grant>, seq<Reward>))
    requires first.0 == db.grants + Earned(student, first.1, now)
    requires second.0 == first.0 + Earned(student, second.1, now)
    requires forall w :: w in second.1 ==> !HasGrant(first.0, student, w.id)
    ensures second.0 == db.grants + Earned(student, first.1 + second.1, now)
    ensures forall w :: w in second.1 ==> !HasGrant(db.grants, student, w.id)
  {
    assert Earned(student, first.1 + second.1, now) == Earned(student, first.1, now) + Earned(student, second.1, now);
    forall w | w in second.1
      ensures !HasGrant(db.grants, student, w.id)
    {
      HasGrantEarned(db.grants, student, first.1, now, w.id);
    }
  }

  /** Which of the two rules fired can be read off the rewards they hand
      out together. */
  lemma BadgeRulesFire(db: Db, student: Id, score: real, topic: Id, now: int)
    ensures var first := PerfectRule(db, student, score, now);
      var rs := first.1 + TopicRule(db, first.0, student, topic, now).1;
      ((exists w :: w in rs && IsPerfectScoreReward(w)) <==> PerfectRuleFires(db, student, score)) &&
      ((exists w :: w in rs && IsTopicReward(w, topic)) ==> TopicRuleFires(db, student, topic)) &&
      (RewardIdsUnique(db.rewards) && TopicRuleFires(db, student, topic) ==> exists w :: w in rs && IsTopicReward(w, topic))
  {
    var first := PerfectRule(db, student, score, now);
    var second := TopicRule(db, first.0, student, topic, now);
    TopicRuleAfterPerfect(db, student, score, topic, now);
  }

  /** Each rule hands out at most its own first match, so together they
      hand out nothing else. */
  lemma BadgePicksCombine(rewards: seq<Reward>, topic: Id, perfect: seq<Reward>, byTopic: seq<Reward>)
    requires |perfect| <= 1 && (perfect != [] ==> FirstMatch(rewards, IsPerfectScoreReward, perfect[0]))
    requires |byTopic| <= 1 && (byTopic != [] ==> FirstMatch(rewards, TopicRewardOf(topic), byTopic[0]))
    ensures forall w :: w in perfect + byTopic ==>
      FirstMatch(rewards, IsPerfectScoreReward, w) || FirstMatch(rewards, TopicRewardOf(topic), w)
  {
  }

  // ---------------------------------------------------------------------
  // Submission

  /** The JSON reply of `submitQuiz`. */
  datatype Submission = Submission(score: real, totalQuestions: nat, correctAnswers: nat, newRewards: seq<Reward>)

  /** `submitQuiz` for the student `student`. An empty quiz gives a score of
      0/0, which the store refuses to cast; a missing `answers` object
      throws on the first lookup. */
  function SubmitQuiz(db: Db, student: Id, quizId: Id, answers: Option<Answers>, now: int): (r: Result<(Submission, Db)>)
    ensures r == Err(NotFound) <==> FindQuiz(db, quizId).None?
    ensures r == Err(Internal) <==>
      FindQuiz(db, quizId).Some? && (|db.quizzes[FindQuiz(db, quizId).value].questions| == 0 || answers.None?)
    ensures r.Ok? <==>
      FindQuiz(db, quizId).Some? && |db.quizzes[FindQuiz(db, quizId).value].questions| > 0 && answers.Some?
    ensures r.Ok? ==>
      FindQuiz(db, quizId).Some? && answers.Some? &&
      var quiz := db.quizzes[FindQuiz(db, quizId).value];
      var (sub, db') := r.value;
      sub.totalQuestions == |quiz.questions| &&
      sub.correctAnswers == CorrectCount(quiz.questions, answers.value) &&
      sub.score == Percent(sub.correctAnswers, sub.totalQuestions) &&
      0.0 <= sub.score <= 100.0 &&
      db'.topics == db.topics && db'.lessons == db.lessons && db'.quizzes == db.quizzes && db'.rewards == db.rewards &&
      db'.progress == RecordAttempt(db.progress, student, quiz, sub.score, Details(quiz.questions, answers.value), now) &&
      (db'.grants, sub.newRewards) == CheckAndAwardBadges(db.(progress := db'.progress), student, sub.score, quiz.topic, now)
  {
    match FindQuiz(db, quizId)
    case None => Err(NotFound)
    case Some(i) =>
      var quiz := db.quizzes[i];
      if |quiz.questions| == 0 || answers.None? then Err(Internal)
      else
        var correct := CorrectCount(quiz.questions, answers.value);
        var score := Percent(correct, |quiz.questions|);
        var progress := RecordAttempt(db.progress, student, quiz, score, Details(quiz.questions, answers.value), now);
        var db1 := db.(progress := progress);
        var badges := CheckAndAwardBadges(db1, student, score, quiz.topic, now);
        Ok((Submission(score, |quiz.questions|, correct, badges.1), db1.(grants := badges.0)))
  }

  /** A submission keeps every store invariant. */
  lemma SubmitKeepsValid(db: Db, student: Id, quizId: Id, answers: Option<Answers>, now: int)
    requires Records.Valid(db)
    ensures SubmitQuiz(db, student, quizId, answers, now).Ok? ==> Records.Valid(SubmitQuiz(db, student, quizId, answers, now).value.1)
  {
    var r := SubmitQuiz(db, student, quizId, answers, now);
    if r.Ok? {
      var quiz := db.quizzes[FindQuiz(db, quizId).value];
      var (sub, db') := r.value;
      var details := Details(quiz.questions, answers.value);
      RecordAttemptKeepsOneRecord(db.progress, student, quiz, sub.score, details, now);
      forall k | 0 <= k < |db'.progress| && db'.progress[k].kind == QuizProgress
        ensures db'.progress[k].score.Some? && 0.0 <= db'.progress[k].score.value <= 100.0
      {
        if k < |db.progress| && db'.progress[k] != db.progress[k] {
          assert db'.progress[k].score == Some(Max(PriorBest(db.progress[k]), sub.score));
        }
      }
    }
  }

  /** Badges are judged on the fresh score: an attempt below 100 earns no
      perfect-score reward, even when the stored best is already 100. */
  lemma PerfectNeedsFreshPerfect(db: Db, student: Id, quizId: Id, answers: Option<Answers>, now: int)
    requires SubmitQuiz(db, student, quizId, answers, now).Ok?
    ensures var sub := SubmitQuiz(db, student, quizId, answers, now).value.0;
      (exists w :: w in sub.newRewards && IsPerfectScoreReward(w)) ==>
        sub.correctAnswers == sub.totalQuestions
  {
    var sub := SubmitQuiz(db, student, quizId, answers, now).value.0;
    if exists w :: w in sub.newRewards && IsPerfectScoreReward(w) {
      assert sub.score == 100.0;
    }
  }

  /** A reward earned once is never earned again: evaluating the rules on
      the grants they produced yields only rewards not earned before. */
  lemma BadgesNeverRepeat(db: Db, student: Id, score: real, topic: Id, now: int, score2: real, topic2: Id, now2: int)
    ensures var first := CheckAndAwardBadges(db, student, score, topic, now);
      var again := CheckAndAwardBadges(db.(grants := first.0), student, score2, topic2, now2);
      forall w :: w in again.1 ==> w !in first.1
  {
    var first := CheckAndAwardBadges(db, student, score, topic, now);
    var again := CheckAndAwardBadges(db.(grants := first.0), student, score2, topic2, now2);
    forall w | w in first.1
      ensures HasGrant(first.0, student, w.id)
    {
      var k :| 0 <= k < |first.1| && first.1[k] == w;
      HasGrantEarned(db.grants, student, first.1, now, w.id);
    }
  }

  // ---------------------------------------------------------------------
  // Reading and editing quizzes

  /** A question as served: students get it without `correctAnswer`. */
  datatype QuestionView = QuestionView(id: Id, questionText: string, options: seq<string>, correctAnswer: Option<string>)

  datatype QuizView = QuizView(id: Id, topic: Id, title: string, questions: seq<QuestionView>)

  function ShowQuestion(q: Question, hideAnswer: bool): QuestionView {
    QuestionView(q.id, q.questionText, q.options, if hideAnswer then None else Some(q.correctAnswer))
  }

  /** The stored quiz a full view describes; `None` when an answer is
      missing. */
  function ViewedQuiz(v: QuizView): Option<Quiz> {
    if forall i :: 0 <= i < |v.questions| ==> v.questions[i].correctAnswer.Some? then
      Some(Quiz(v.id, v.topic, v.title,
        seq(|v.questions|, i requires 0 <= i < |v.questions| && v.questions[i].correctAnswer.Some? =>
          Question(v.questions[i].id, v.questions[i].questionText, v.questions[i].options, v.questions[i].correctAnswer.value))))
    else None
  }

  function View(quiz: Quiz, hideAnswers: bool): QuizView {
    QuizView(quiz.id, quiz.topic, quiz.title,
      seq(|quiz.questions|, k requires 0 <= k < |quiz.questions| => ShowQuestion(quiz.questions[k], hideAnswers)))
  }

  /** A full view gives back the stored quiz. */
  lemma ViewRoundTrip(quiz: Quiz)
    ensures ViewedQuiz(View(quiz, false)) == Some(quiz)
  {
    var v := View(quiz, false);
    assert ViewedQuiz(v).Some?;
    assert ViewedQuiz(v).value.questions == quiz.questions;
  }

  /** `getQuizById` for a caller of role `role`. */
  function GetQuizById(db: Db, role: Role, id: Id): (r: Result<QuizView>)
    ensures r.Err? <==> FindQuiz(db, id).None?
    ensures r.Err? ==> r.error == NotFound
    ensures r.Ok? ==>
      FindQuiz(db, id).Some? &&
      var quiz := db.quizzes[FindQuiz(db, id).value];
      r.value.id == id && r.value.topic == quiz.topic && r.value.title == quiz.title &&
      |r.value.questions| == |quiz.questions| &&
      forall i :: 0 <= i < |quiz.questions| ==>
        r.value.questions[i].id == quiz.questions[i].id &&
        r.value.questions[i].questionText == quiz.questions[i].questionText &&
        r.value.questions[i].options == quiz.questions[i].options &&
        (r.value.questions[i].correctAnswer.None? <==> role == Student)
    ensures r.Ok? && role != Student ==> ViewedQuiz(r.value) == Some(db.quizzes[FindQuiz(db, id).value])
  {
    match FindQuiz(db, id)
    case None => Err(NotFound)
    case Some(i) =>
      var quiz := db.quizzes[i];
      ViewRoundTrip(quiz);
      Ok(View(quiz, role == Student))
  }

  /** The three assignments of `updateQuiz`: `title` and `topic` fall back
      when falsy, `questions` only when absent (an array is always
      truthy). */
  function EditQuiz(prev: Quiz, title: Option<string>, topic: Option<Id>, questions: Option<seq<Question>>): (q: Quiz)
    ensures q.id == prev.id
    ensures QuizValid(prev) && (questions.Some? ==> forall k :: 0 <= k < |questions.value| ==> QuestionValid(questions.value[k]))
      ==> QuizValid(q)
  {
    prev.(title := OrElse(title, prev.title), topic := OrElse(topic, prev.topic), questions := OrKeep(questions, prev.questions))
  }

  /** `updateQuiz`: every falsy field keeps its old value, the replaced
      questions are validated on save. Progress is not touched. */
  function UpdateQuiz(db: Db, id: Id, title: Option<string>, topic: Option<Id>, questions: Option<seq<Question>>): (r: Result<Db>)
    ensures r == Err(NotFound) <==> FindQuiz(db, id).None?
    ensures FindQuiz(db, id).Some? ==>
      (r.Ok? <==> QuizValid(EditQuiz(db.quizzes[FindQuiz(db, id).value], title, topic, questions)))
    ensures FindQuiz(db, id).Some? && QuizValid(db.quizzes[FindQuiz(db, id).value]) &&
      (questions.Some? ==> forall k :: 0 <= k < |questions.value| ==> QuestionValid(questions.value[k]))
      ==> r.Ok?
    ensures r.Ok? ==>
      FindQuiz(db, id).Some? &&
      var i := FindQuiz(db, id).value;
      |r.value.quizzes| == |db.quizzes| &&
      var q := r.value.quizzes[i];
      r.value == db.(quizzes := db.quizzes[i := q]) &&
      q.id == id && QuizValid(q) &&
      (if Falsy(title) then q.title == db.quizzes[i].title else Some(q.title) == title) &&
      (if Falsy(topic) then q.topic == db.quizzes[i].topic else Some(q.topic) == topic) &&
      (if questions.None? then q.questions == db.quizzes[i].questions else Some(q.questions) == questions)
    ensures r.Err? && r.error != NotFound ==> r.error == Internal
  {
    match FindQuiz(db, id)
    case None => Err(NotFound)
    case Some(i) =>
      var prev := db.quizzes[i];
      var q := EditQuiz(prev, title, topic, questions);
      if QuizValid(q) then Ok(db.(quizzes := db.quizzes[i := q])) else Err(Internal)
  }

  /** An update that sends nothing leaves a valid stored quiz as it was. */
  lemma UpdateQuizEmptyIsIdentity(db: Db, id: Id)
    requires FindQuiz(db, id).Some? && QuizValid(db.quizzes[FindQuiz(db, id).value])
    ensures UpdateQuiz(db, id, None, None, None) == Ok(db)
  {
    var i := FindQuiz(db, id).value;
    UpdateSelf(db.quizzes, i);
  }

  /** Sending the same update twice changes nothing the first did not. */
  lemma UpdateQuizIdempotent(db: Db, id: Id, title: Option<string>, topic: Option<Id>, questions: Option<seq<Question>>)
    requires UpdateQuiz(db, id, title, topic, questions).Ok?
    ensures var db' := UpdateQuiz(db, id, title, topic, questions).value;
      UpdateQuiz(db', id, title, topic, questions) == Ok(db')
  {
    var i := FindQuiz(db, id).value;
    var db' := UpdateQuiz(db, id, title, topic, questions).value;
    var q := db'.quizzes[i];
    FindFirstSame(db.quizzes, db'.quizzes, (q: Quiz) => q.id == id);
    assert FindQuiz(db', id) == Some(i);
    var q' := EditQuiz(q, title, topic, questions);
    assert q' == q;
    assert db'.quizzes[i := q'] == db'.quizzes;
  }

  /** `deleteQuiz`: removes the quiz and nothing else; its progress records
      stay behind. */
  function DeleteQuiz(db: Db, id: Id): (r: Result<Db>)
    ensures r.Err? <==> FindQuiz(db, id).None?
    ensures r.Err? ==> r.error == NotFound
    ensures r.Ok? ==>
      FindQuiz(db, id).Some? &&
      r.value == db.(quizzes := RemoveAt(db.quizzes, FindQuiz(db, id).value))
  {
    match FindQuiz(db, id)
    case None => Err(NotFound)
    case Some(i) => Ok(db.(quizzes := RemoveAt(db.quizzes, i)))
  }

  /** Deleting a quiz lowers its topic's quiz count by one and leaves the
      student's records for that topic as they were. A student who had
      completed the topic now holds one record more than there are quizzes,
      so the completion rule cannot fire. */
  lemma DeleteQuizOrphansAttempts(db: Db, id: Id, student: Id)
    requires FindQuiz(db, id).Some?
    ensures DeleteQuiz(db, id).Ok?
    ensures var topic := db.quizzes[FindQuiz(db, id).value].topic;
      var db' := DeleteQuiz(db, id).value;
      QuizzesInTopic(db'.quizzes, topic) + 1 == QuizzesInTopic(db.quizzes, topic) &&
      AttemptsInTopic(db'.progress, student, topic) == AttemptsInTopic(db.progress, student, topic)
    ensures var topic := db.quizzes[FindQuiz(db, id).value].topic;
      var db' := DeleteQuiz(db, id).value;
      AttemptsInTopic(db.progress, student, topic) == QuizzesInTopic(db.quizzes, topic) ==>
        AttemptsInTopic(db'.progress, student, topic) == QuizzesInTopic(db'.quizzes, topic) + 1 &&
        !TopicRuleFires(db', student, topic)
  {
    var i := FindQuiz(db, id).value;
    var topic := db.quizzes[i].topic;
    CountRemoveAt(db.quizzes, i, (q: Quiz) => q.topic == topic);
  }

  /** The upsert never lowers the number of the student's records in a
      topic. */
  lemma RecordAttemptKeepsTopicCount(progress: seq<Progress>, student: Id, quiz: Quiz, score: real, details: seq<AnswerDetail>, now: int, topic: Id)
    ensures AttemptsInTopic(RecordAttempt(progress, student, quiz, score, details, now), student, topic) >=
            AttemptsInTopic(progress, student, topic)
  {
    match FindFirst(progress, AttemptOf(student, quiz))
    case None =>
      CountSnoc(progress, Progress(student, QuizProgress, quiz.id, quiz.topic, Some(score), details, now, now), TopicAttemptOf(student, topic));
    case Some(j) =>
      var p := progress[j];
      CountUpdate(progress, j, p.(score := Some(Max(PriorBest(p), score)), answers := details, updatedAt := now), TopicAttemptOf(student, topic));
  }

  /** Once a topic holds more of the student's records than quizzes, no
      later submission in that topic earns its completion reward. */
  lemma OrphanBlocksTopicReward(db: Db, student: Id, quizId: Id, answers: Option<Answers>, now: int)
    requires FindQuiz(db, quizId).Some?
    requires var topic := db.quizzes[FindQuiz(db, quizId).value].topic;
      AttemptsInTopic(db.progress, student, topic) > QuizzesInTopic(db.quizzes, topic)
    ensures var topic := db.quizzes[FindQuiz(db, quizId).value].topic;
      var r := SubmitQuiz(db, student, quizId, answers, now);
      r.Ok? ==> forall w :: w in r.value.0.newRewards ==> !IsTopicReward(w, topic)
  {
    var quiz := db.quizzes[FindQuiz(db, quizId).value];
    var r := SubmitQuiz(db, student, quizId, answers, now);
    if r.Ok? {
      var (sub, db') := r.value;
      RecordAttemptKeepsTopicCount(db.progress, student, quiz, sub.score, Details(quiz.questions, answers.value), now, quiz.topic);
      assert !TopicRuleFires(db.(progress := db'.progress), student, quiz.topic);
    }
  }

  /** The upsert key includes the topic: after a quiz moves to another
      topic, the student's next submission files a second record for the
      same quiz instead of updating the first. */
  lemma RetopicSplitsAttempts(db: Db, student: Id, quizId: Id, newTopic: Id, answers: Answers, now: int)
    requires FindQuiz(db, quizId).Some?
    requires var before := db.quizzes[FindQuiz(db, quizId).value];
      newTopic != "" && newTopic != before.topic &&
      exists j :: 0 <= j < |db.progress| && IsAttempt(db.progress[j], student, before)
    requires UpdateQuiz(db, quizId, None, Some(newTopic), None).Ok?
    ensures var db1 := UpdateQuiz(db, quizId, None, Some(newTopic), None).value;
      var r := SubmitQuiz(db1, student, quizId, Some(answers), now);
      r.Ok? ==>
        exists j, k :: 0 <= j < |r.value.1.progress| && 0 <= k < |r.value.1.progress| &&
          r.value.1.progress[j].kind == QuizProgress && r.value.1.progress[k].kind == QuizProgress &&
          r.value.1.progress[j].student == student && r.value.1.progress[k].student == student &&
          r.value.1.progress[j].item == quizId && r.value.1.progress[k].item == quizId &&
          r.value.1.progress[j].topic != r.value.1.progress[k].topic
  {
    var i := FindQuiz(db, quizId).value;
    var before := db.quizzes[i];
    var db1 := UpdateQuiz(db, quizId, None, Some(newTopic), None).value;
    FindFirstSame(db.quizzes, db1.quizzes, (q: Quiz) => q.id == quizId);
    var quiz := db1.quizzes[i];
    assert quiz.topic == newTopic && quiz.id == before.id && db1.progress == db.progress;
    var r := SubmitQuiz(db1, student, quizId, Some(answers), now);
    if r.Ok? {
      RecordAttemptSplits(db.progress, student, before, quiz, r.value.0.score, Details(quiz.questions, answers), now);
    }
  }

  /** An attempt under the old topic survives an upsert under the new one,
      next to the record the upsert leaves for the new key. */
  lemma RecordAttemptSplits(progress: seq<Progress>, student: Id, before: Quiz, quiz: Quiz, score: real, details: seq<AnswerDetail>, now: int)
    requires before.id == quiz.id && before.topic != quiz.topic
    requires exists j :: 0 <= j < |progress| && IsAttempt(progress[j], student, before)
    ensures var p' := RecordAttempt(progress, student, quiz, score, details, now);
      exists j, k :: 0 <= j < |p'| && 0 <= k < |p'| &&
        p'[j].kind == QuizProgress && p'[k].kind == QuizProgress &&
        p'[j].student == student && p'[k].student == student &&
        p'[j].item == quiz.id && p'[k].item == quiz.id &&
        p'[j].topic != p'[k].topic
  {
    var p' := RecordAttempt(progress, student, quiz, score, details, now);
    var j :| 0 <= j < |progress| && IsAttempt(progress[j], student, before);
    RecordAttemptTouchesOnlyKey(progress, student, quiz, score, details, now);
    var k :| 0 <= k < |p'| && IsAttempt(p'[k], student, quiz);
    assert p'[j] == progress[j];
    assert p'[j].topic != p'[k].topic;
  }

  // ---------------------------------------------------------------------
  // Routes (backend/routes/quizRoutes.js)

  /** `POST /:id/submit`: `protect`, `studentOnly`. */
  function SubmitRoute(auth: Authentication, db: Db, quizId: Id, answers: Option<Answers>, now: int): (r: Result<(Submission, Db)>)
    ensures r.Ok? ==>
      auth.Authenticated? && auth.user.Some? && auth.user.value.role == Student &&
      r == SubmitQuiz(db, auth.user.value.id, quizId, answers, now)
    ensures auth.Authenticated? && auth.user.Some? && auth.user.value.role != Student ==> r == Err(Forbidden)
    ensures r == Err(Unauthorized) <==> !auth.Authenticated?
    ensures auth.Authenticated? && auth.user.Some? && auth.user.value.role in Admits(StudentOnly) ==>
      r == SubmitQuiz(db, auth.user.value.id, quizId, answers, now)
  {
    match Authorize(auth, StudentOnly)
    case Err(e) => Err(e)
    case Ok(u) =>
      assert u.role == Student;
      SubmitQuiz(db, u.id, quizId, answers, now)
  }

  /** `GET /:id`: `protect` alone, so every role may read, and the
      projection depends on the caller's role. With no guard in front,
      `getQuizById` looks the quiz up first: an unknown id is 404 even when
      `req.user` is null, and only a found quiz reads `req.user.role`. */
  function GetQuizRoute(auth: Authentication, db: Db, id: Id): (r: Result<QuizView>)
    ensures r == Err(Unauthorized) <==> !auth.Authenticated?
    ensures auth.Authenticated? && auth.user.Some? ==> r == GetQuizById(db, auth.user.value.role, id)
    ensures auth.Authenticated? && auth.user.None? ==>
      r == (if FindQuiz(db, id).None? then Err(NotFound) else Err(Internal))
    ensures r.Ok? ==> auth.Authenticated? && auth.user.Some?
  {
    match auth
    case NoToken => Err(Unauthorized)
    case TokenFailed => Err(Unauthorized)
    case Authenticated(None) =>
      if FindQuiz(db, id).None? then Err(NotFound) else Err(Internal)
    case Authenticated(Some(u)) => GetQuizById(db, u.role, id)
  }

  /** `PUT /:id`: `protect`, `adminOrTeacher`. */
  function UpdateQuizRoute(auth: Authentication, db: Db, id: Id, title: Option<string>, topic: Option<Id>, questions: Option<seq<Question>>): (r: Result<Db>)
    ensures r.Ok? ==> auth.Authenticated? && auth.user.Some? && auth.user.value.role in {Admin, Teacher}
    ensures auth.Authenticated? && auth.user.Some? && auth.user.value.role in {Student, Parent} ==> r == Err(Forbidden)
    ensures r == Err(Unauthorized) <==> !auth.Authenticated?
    ensures auth.Authenticated? && auth.user.Some? && auth.user.value.role in Admits(AdminOrTeacher) ==>
      r == UpdateQuiz(db, id, title, topic, questions)
  {
    match Authorize(auth, AdminOrTeacher)
    case Err(e) => Err(e)
    case Ok(actor) =>
      assert actor.role == Admin || actor.role == Teacher;
      UpdateQuiz(db, id, title, topic, questions)
  }

  /** `DELETE /:id`: `protect`, `adminOrTeacher`. */
  function DeleteQuizRoute(auth: Authentication, db: Db, id: Id): (r: Result<Db>)
    ensures r.Ok? ==> auth.Authenticated? && auth.user.Some? && auth.user.value.role in {Admin, Teacher}
    ensures auth.Authenticated? && auth.user.Some? && auth.user.value.role in {Student, Parent} ==> r == Err(Forbidden)
    ensures r == Err(Unauthorized) <==> !auth.Authenticated?
    ensures auth.Authenticated? && auth.user.Some? && auth.user.value.role in Admits(AdminOrTeacher) ==>
      r == DeleteQuiz(db, id)
  {
    match Authorize(auth, AdminOrTeacher)
    case Err(e) => Err(e)
    case Ok(actor) =>
      assert actor.role == Admin || actor.role == Teacher;
      DeleteQuiz(db, id)
  }
}

=== FILE: records.dfy ===
/** The learning-content documents (backend/models/topicModel.js,
    lessonModel.js, quizModel.js, progressModel.js, rewardModel.js,
    userRewardModel.js) and the store that holds them. */
module Records {
  import opened Common
  import opened Collections

  datatype Topic = Topic(id: Id, title: string, description: string, coverImage: string)

  datatype Lesson = Lesson(id: Id, title: string, content: string, topic: Id, author: Id)

  /** A question subdocument; the correct answer is matched by its text. */
  datatype Question = Question(id: Id, questionText: string, options: seq<string>, correctAnswer: string)

  /** A quiz. The schema declares no author path, so the creator id that
      `createQuiz` passes is not stored. */
  datatype Quiz = Quiz(id: Id, topic: Id, title: string, questions: seq<Question>)

  /** `progressType`; `onModel` always names the matching model and is not
      kept apart. */
  datatype ProgressKind = LessonProgress | QuizProgress

  datatype AnswerDetail = AnswerDetail(questionText: string, selectedAnswer: string, isCorrect: bool)

  /** A progress document. There is no `timeSpent`: the schema declares no
      such path, so the store drops the value the controller passes.
      `createdAt` and `updatedAt` are clock readings. */
  datatype Progress = Progress(
    student: Id,
    kind: ProgressKind,
    item: Id,
    topic: Id,
    score: Option<real>,
    answers: seq<AnswerDetail>,
    createdAt: int,
    updatedAt: int)

  /** `criteria` is an open object stored as given; the model keeps its
      string-valued fields. */
  type Criteria = map<string, string>

  datatype Reward = Reward(id: Id, name: string, description: string, icon: string, criteria: Criteria)

  /** A user-reward document: `student` earned `reward` at `dateEarned`. */
  datatype Grant = Grant(student: Id, reward: Id, dateEarned: int)

  datatype Db = Db(
    topics: seq<Topic>,
    lessons: seq<Lesson>,
    quizzes: seq<Quiz>,
    progress: seq<Progress>,
    rewards: seq<Reward>,
    grants: seq<Grant>)

  function FindTopic(db: Db, id: Id): Option<nat> {
    FindFirst(db.topics, (t: Topic) => t.id == id)
  }

  function FindLesson(db: Db, id: Id): Option<nat> {
    FindFirst(db.lessons, (l: Lesson) => l.id == id)
  }

  function FindQuiz(db: Db, id: Id): Option<nat> {
    FindFirst(db.quizzes, (q: Quiz) => q.id == id)
  }

  function FindReward(db: Db, id: Id): Option<nat> {
    FindFirst(db.rewards, (r: Reward) => r.id == id)
  }

  /** The `required` validators of the question schema: Mongoose rejects a
      missing or empty string. */
  predicate QuestionValid(q: Question) {
    q.questionText != "" && q.correctAnswer != "" && forall k :: 0 <= k < |q.options| ==> q.options[k] != ""
  }

  /** What `quiz.save()` validates. */
  predicate QuizValid(q: Quiz) {
    q.title != "" && q.topic != "" && forall k :: 0 <= k < |q.questions| ==> QuestionValid(q.questions[k])
  }

  predicate HasGrant(grants: seq<Grant>, student: Id, reward: Id) {
    exists i :: 0 <= i < |grants| && grants[i].student == student && grants[i].reward == reward
  }

  /** The unique (student, reward) index of the user-reward collection. */
  ghost predicate GrantsUnique(grants: seq<Grant>) {
    forall i, j :: 0 <= i < j < |grants| ==>
      grants[i].student != grants[j].student || grants[i].reward != grants[j].reward
  }

  /** Document ids are distinct. */
  ghost predicate RewardIdsUnique(rewards: seq<Reward>) {
    forall i, j :: 0 <= i < j < |rewards| ==> rewards[i].id != rewards[j].id
  }

  /** The unique `name` index of the reward collection. */
  ghost predicate RewardNamesUnique(rewards: seq<Reward>) {
    forall i, j :: 0 <= i < j < |rewards| ==> rewards[i].name != rewards[j].name
  }

  /** The key `submitQuiz` upserts on: student, quiz and the quiz's topic. */
  predicate SameAttemptKey(p: Progress, q: Progress) {
    p.kind == QuizProgress && q.kind == QuizProgress
    && p.student == q.student && p.item == q.item && p.topic == q.topic
  }

  /** At most one quiz record per (student, quiz, topic). */
  ghost predicate AttemptsUnique(progress: seq<Progress>) {
    forall i, j :: 0 <= i < j < |progress| ==> !SameAttemptKey(progress[i], progress[j])
  }

  /** Every quiz record carries a percentage. */
  ghost predicate ScoresInRange(progress: seq<Progress>) {
    forall i :: 0 <= i < |progress| && progress[i].kind == QuizProgress ==>
      progress[i].score.Some? && 0.0 <= progress[i].score.value <= 100.0
  }

  ghost predicate Valid(db: Db) {
    GrantsUnique(db.grants) && RewardIdsUnique(db.rewards) && RewardNamesUnique(db.rewards) && AttemptsUnique(db.progress) && ScoresInRange(db.progress)
  }
}

=== FILE: rewards.dfy ===
/** Reward CRUD and the student's reward list
    (backend/controllers/rewardController.js). */
module RewardController {
  import opened Common
  import opened Collections
  import opened Accounts
  import opened Auth
  import opened Records

  /** The required string fields of the reward schema; `criteria` is
      required but any object passes, so it is not inspected. */
  predicate RewardValid(w: Reward) {
    w.name != "" && w.description != "" && w.icon != ""
  }

  predicate NameTaken(rewards: seq<Reward>, name: string, except: Id) {
    exists k :: 0 <= k < |rewards| && rewards[k].name == name && rewards[k].id != except
  }

  /** `getRewardById`. */
  function GetRewardById(db: Db, id: Id): (r: Result<Reward>)
    ensures r.Err? <==> forall k :: 0 <= k < |db.rewards| ==> db.rewards[k].id != id
    ensures r.Err? ==> r.error == NotFound
    ensures r.Ok? ==> r.value.id == id && r.value in db.rewards
  {
    match FindReward(db, id)
    case None => Err(NotFound)
    case Some(i) => Ok(db.rewards[i])
  }

  /** `createReward`: fields and `criteria` stored as given; a missing
      field fails validation and a taken name fails the unique index. */
  function CreateReward(db: Db, newId: Id, name: Option<string>, description: Option<string>, icon: Option<string>, criteria: Option<Criteria>): (r: Result<Db>)
    requires FindReward(db, newId).None?
    ensures r.Err? <==>
      Falsy(name) || Falsy(description) || Falsy(icon) || criteria.None? || NameTaken(db.rewards, name.value, newId)
    ensures r.Err? ==> r.error == Internal
    ensures r.Ok? ==>
      r.value == db.(rewards := db.rewards + [Reward(newId, name.value, description.value, icon.value, criteria.value)])
    ensures r.Ok? && RewardIdsUnique(db.rewards) && RewardNamesUnique(db.rewards) ==>
      RewardIdsUnique(r.value.rewards) && RewardNamesUnique(r.value.rewards)
  {
    if Falsy(name) || Falsy(description) || Falsy(icon) || criteria.None? || NameTaken(db.rewards, name.value, newId)
    then Err(Internal)
    else
      var w := Reward(newId, name.value, description.value, icon.value, criteria.value);
      var rs := db.rewards + [w];
      assert forall k :: 0 <= k < |db.rewards| ==> rs[k] == db.rewards[k] && db.rewards[k].id != newId;
      Ok(db.(rewards := rs))
  }

  /** The four assignments of `updateReward`: strings fall back when
      falsy, `criteria` only when absent (an object is always truthy). */
  function EditReward(prev: Reward, name: Option<string>, description: Option<string>, icon: Option<string>, criteria: Option<Criteria>): (w: Reward)
    ensures w.id == prev.id
    ensures RewardValid(prev) ==> RewardValid(w)
    ensures criteria.Some? ==> w.criteria == criteria.value
    ensures criteria.None? ==> w.criteria == prev.criteria
  {
    prev.(name := OrElse(name, prev.name), description := OrElse(description, prev.description),
          icon := OrElse(icon, prev.icon), criteria := OrKeep(criteria, prev.criteria))
  }

  /** Under the unique name index, a reward's own name is taken by no
      other reward. */
  lemma OwnNameFree(rewards: seq<Reward>, i: nat)
    requires i < |rewards|
    ensures RewardNamesUnique(rewards) ==> !NameTaken(rewards, rewards[i].name, rewards[i].id)
  {
  }

  /** `updateReward`: the edited reward is validated and its name checked
      against the unique index. */
  function UpdateReward(db: Db, id: Id, name: Option<string>, description: Option<string>, icon: Option<string>, criteria: Option<Criteria>): (r: Result<Db>)
    ensures r == Err(NotFound) <==> FindReward(db, id).None?
    ensures r.Err? && r.error != NotFound ==> r.error == Internal
    ensures FindReward(db, id).Some? ==>
      var w := EditReward(db.rewards[FindReward(db, id).value], name, description, icon, criteria);
      (r.Ok? <==> RewardValid(w) && !NameTaken(db.rewards, w.name, id))
    ensures FindReward(db, id).Some? && RewardValid(db.rewards[FindReward(db, id).value]) &&
      RewardNamesUnique(db.rewards) && (Falsy(name) || !NameTaken(db.rewards, name.value, id))
      ==> r.Ok?
    ensures r.Ok? ==>
      FindReward(db, id).Some? &&
      var i := FindReward(db, id).value;
      var prev := db.rewards[i];
      |r.value.rewards| == |db.rewards| &&
      var w := r.value.rewards[i];
      r.value == db.(rewards := db.rewards[i := w]) &&
      w.id == id && !NameTaken(db.rewards, w.name, id) &&
      (if Falsy(name) then w.name == prev.name else Some(w.name) == name) &&
      (if Falsy(description) then w.description == prev.description else Some(w.description) == description) &&
      (if Falsy(icon) then w.icon == prev.icon else Some(w.icon) == icon) &&
      (if criteria.None? then w.criteria == prev.criteria else Some(w.criteria) == criteria)
  {
    match FindReward(db, id)
    case None => Err(NotFound)
    case Some(i) =>
      var w := EditReward(db.rewards[i], name, description, icon, criteria);
      OwnNameFree(db.rewards, i);
      if RewardValid(w) && !NameTaken(db.rewards, w.name, id) then Ok(db.(rewards := db.rewards[i := w]))
      else Err(Internal)
  }

  /** An update keeps reward ids and names distinct. */
  lemma UpdateRewardKeepsIndexes(db: Db, id: Id, name: Option<string>, description: Option<string>, icon: Option<string>, criteria: Option<Criteria>)
    requires RewardIdsUnique(db.rewards) && RewardNamesUnique(db.rewards)
    requires UpdateReward(db, id, name, description, icon, criteria).Ok?
    ensures var rs := UpdateReward(db, id, name, description, icon, criteria).value.rewards;
      RewardIdsUnique(rs) && RewardNamesUnique(rs)
  {
    var i := FindReward(db, id).value;
    var rs := UpdateReward(db, id, name, description, icon, criteria).value.rewards;
    forall a, b | 0 <= a < b < |rs|
      ensures rs[a].id != rs[b].id && rs[a].name != rs[b].name
    {
      if a == i {
        assert rs[b] == db.rewards[b];
      } else if b == i {
        assert rs[a] == db.rewards[a];
      }
    }
  }

  /** `deleteReward`: only the reward goes; grants of it stay. */
  function DeleteReward(db: Db, id: Id): (r: Result<Db>)
    ensures r.Err? <==> FindReward(db, id).None?
    ensures r.Err? ==> r.error == NotFound
    ensures r.Ok? ==>
      FindReward(db, id).Some? &&
      r.value == db.(rewards := RemoveAt(db.rewards, FindReward(db, id).value))
  {
    match FindReward(db, id)
    case None => Err(NotFound)
    case Some(i) => Ok(db.(rewards := RemoveAt(db.rewards, i)))
  }

  /** After a reward is deleted, the grants that pointed at it remain and
      now refer to no reward. */
  lemma DeleteRewardLeavesGrants(db: Db, id: Id)
    requires RewardIdsUnique(db.rewards)
    requires DeleteReward(db, id).Ok?
    ensures var db' := DeleteReward(db, id).value;
      db'.grants == db.grants &&
      forall k :: 0 <= k < |db'.rewards| ==> db'.rewards[k].id != id
  {
    var i := FindReward(db, id).value;
    var db' := DeleteReward(db, id).value;
    forall k | 0 <= k < |db'.rewards|
      ensures db'.rewards[k].id != id
    {
      var k' := if k < i then k else k + 1;
      assert db'.rewards[k] == db.rewards[k'] && k' != i;
    }
  }

  function DateEarned(g: Grant): int {
    g.dateEarned
  }

  /** `getMyRewards`: the caller's grants, newest first. Ties keep no
      particular order. */
  function GetMyRewards(grants: seq<Grant>, student: Id): (r: seq<Grant>)
    ensures forall g :: g in r <==> g in grants && g.student == student
    ensures |r| == Count(grants, (g: Grant) => g.student == student)
    ensures SortedDesc(r, DateEarned)
    ensures multiset(r) == multiset(Filter(grants, (g: Grant) => g.student == student))
  {
    FindSortedDesc(grants, (g: Grant) => g.student == student, DateEarned)
  }

  /** `GET /api/rewards`: `protect`, `studentOnly`. */
  function MyRewardsRoute(auth: Authentication, grants: seq<Grant>): (r: Result<seq<Grant>>)
    ensures r.Ok? ==>
      auth.Authenticated? && auth.user.Some? && auth.user.value.role == Student &&
      forall g :: g in r.value ==> g.student == auth.user.value.id
    ensures auth.Authenticated? && auth.user.Some? && auth.user.value.role != Student ==> r == Err(Forbidden)
    ensures r == Err(Unauthorized) <==> !auth.Authenticated?
    ensures auth.Authenticated? && auth.user.Some? && auth.user.value.role in Admits(StudentOnly) ==>
      r == Ok(GetMyRewards(grants, auth.user.value.id))
  {
    match Authorize(auth, StudentOnly)
    case Err(e) => Err(e)
    case Ok(u) =>
      assert u.role == Student;
      Ok(GetMyRewards(grants, u.id))
  }
}

=== FILE: shuffle.dfy ===
/** The quiz page's client-side helpers (frontend/src/pages/QuizPage.jsx):
    the Fisher–Yates `shuffleArray`, the per-question option shuffle and
    the `timeSpent` it submits. `Math.random()` is an oracle: a sequence of
    draws in [0, 1), consumed one per loop iteration. */
module QuizPage {
  import QuizController

  /** One value of `Math.random()`. */
  type Draw = d: real | 0.0 <= d < 1.0

  /** `Math.floor(Math.random() * currentIndex)`. */
  function PickIndex(d: Draw, currentIndex: nat): (j: nat)
    requires currentIndex > 0
    ensures j < currentIndex
  {
    var x := d * currentIndex as real;
    assert 0.0 <= x < currentIndex as real;
    x.Floor
  }

  /** The destructuring swap of two array slots. */
  function Swap<T>(s: seq<T>, i: nat, j: nat): (r: seq<T>)
    requires i < |s| && j < |s|
    ensures |r| == |s|
  {
    s[i := s[j]][j := s[i]]
  }

  /** A swap exchanges the two slots and leaves every other slot alone. */
  lemma SwapMoves<T>(s: seq<T>, i: nat, j: nat)
    requires i < |s| && j < |s|
    ensures Swap(s, i, j)[i] == s[j] && Swap(s, i, j)[j] == s[i]
    ensures forall k :: 0 <= k < |s| && k != i && k != j ==> Swap(s, i, j)[k] == s[k]
  {
  }

  /** A swap keeps every value, as often as before. */
  lemma SwapPermutes<T>(s: seq<T>, i: nat, j: nat)
    requires i < |s| && j < |s|
    ensures multiset(Swap(s, i, j)) == multiset(s)
  {
  }

  /** The loop from `currentIndex` down to 0, on the values the array
      holds: each round swaps slot `currentIndex - 1` with a slot below
      it picked by the next draw. */
  function Run<T>(s: seq<T>, draws: seq<Draw>, currentIndex: nat): (r: seq<T>)
    requires currentIndex <= |s| && currentIndex <= |draws|
    ensures |r| == |s|
    decreases currentIndex
  {
    if currentIndex == 0 then s
    else
      var j := PickIndex(draws[0], currentIndex);
      Run(Swap(s, currentIndex - 1, j), draws[1..], currentIndex - 1)
  }

  /** Every round is a swap, so the loop permutes the array. */
  lemma {:induction false} RunPermutes<T>(s: seq<T>, draws: seq<Draw>, currentIndex: nat)
    requires currentIndex <= |s| && currentIndex <= |draws|
    ensures multiset(Run(s, draws, currentIndex)) == multiset(s)
    decreases currentIndex
  {
    if currentIndex > 0 {
      var j := PickIndex(draws[0], currentIndex);
      RunPermutes(Swap(s, currentIndex - 1, j), draws[1..], currentIndex - 1);
      SwapPermutes(s, currentIndex - 1, j);
    }
  }

  /** Every round swaps two slots below `currentIndex`, so the slots from
      `currentIndex` up are never touched. */
  lemma {:induction false} RunKeepsAbove<T>(s: seq<T>, draws: seq<Draw>, currentIndex: nat)
    requires currentIndex <= |s| && currentIndex <= |draws|
    ensures forall k :: currentIndex <= k < |s| ==> Run(s, draws, currentIndex)[k] == s[k]
    decreases currentIndex
  {
    if currentIndex > 0 {
      var j := PickIndex(draws[0], currentIndex);
      RunKeepsAbove(Swap(s, currentIndex - 1, j), draws[1..], currentIndex - 1);
      SwapMoves(s, currentIndex - 1, j);
    }
  }

  /** What `shuffleArray` leaves in an array holding `s`. */
  function Shuffled<T>(s: seq<T>, draws: seq<Draw>): (r: seq<T>)
    requires |s| <= |draws|
    ensures |r| == |s|
    ensures multiset(r) == multiset(s)
  {
    RunPermutes(s, draws, |s|);
    Run(s, draws, |s|)
  }

  /** A one-element or empty array is never moved. */
  lemma ShortArraysStay<T>(s: seq<T>, draws: seq<Draw>)
    requires |s| <= 1 && |s| <= |draws|
    ensures Shuffled(s, draws) == s
  {
    if |s| == 1 {
      assert PickIndex(draws[0], 1) == 0;
      assert Swap(s, 0, 0) == s;
    }
  }

  /** One round of the loop, with the draws consumed so far dropped. */
  lemma RunStep<T>(s: seq<T>, draws: seq<Draw>, k: nat, currentIndex: nat)
    requires 0 < currentIndex <= |s| && k + currentIndex <= |draws|
    ensures Run(s, draws[k..], currentIndex)
         == Run(Swap(s, currentIndex - 1, PickIndex(draws[k], currentIndex)), draws[k + 1..], currentIndex - 1)
  {
    assert draws[k..][0] == draws[k] && draws[k..][1..] == draws[k + 1..];
  }

  /** The destructuring assignment `[a[i], a[j]] = [a[j], a[i]]`. */
  method SwapSlots<T>(a: array<T>, i: nat, j: nat)
    requires i < a.Length && j < a.Length
    modifies a
    ensures a[..] == Swap(old(a[..]), i, j)
  {
    a[i], a[j] := a[j], a[i];
  }

  /** `shuffleArray`: shuffles in place and returns the array it was
      given. */
  method ShuffleArray<T>(a: array<T>, draws: seq<Draw>) returns (r: array<T>)
    requires a.Length <= |draws|
    modifies a
    ensures r == a
    ensures a[..] == Shuffled(old(a[..]), draws)
    ensures multiset(a[..]) == multiset(old(a[..]))
  {
    ghost var goal := Shuffled(a[..], draws);
    var currentIndex := a.Length;
    var k := 0;
    while currentIndex != 0
      invariant 0 <= currentIndex <= a.Length
      invariant k == a.Length - currentIndex
      invariant Run(a[..], draws[k..], currentIndex) == goal
      decreases currentIndex
    {
      var randomIndex := PickIndex(draws[k], currentIndex);
      ghost var before := a[..];
      RunStep(before, draws, k, currentIndex);
      ghost var after := Swap(before, currentIndex - 1, randomIndex);
      assert Run(after, draws[k + 1..], currentIndex - 1) == goal;
      currentIndex := currentIndex - 1;
      SwapSlots(a, currentIndex, randomIndex);
      k := k + 1;
      assert a[..] == after;
    }
    r := a;
  }

  /** One entry of `shuffledQuestions`: the question with a shuffled copy
      of its options; the question itself is not changed. */
  method ShuffleOptions(q: QuizController.QuestionView, draws: seq<Draw>) returns (r: QuizController.QuestionView)
    requires |q.options| <= |draws|
    ensures r == q.(options := Shuffled(q.options, draws))
    ensures multiset(r.options) == multiset(q.options)
  {
    var copy := new string[|q.options|](i requires 0 <= i < |q.options| => q.options[i]);
    assert copy[..] == q.options;
    var shuffled := ShuffleArray(copy, draws);
    r := q.(options := shuffled[..]);
  }

  /** `shuffledQuestions`: every question in quiz order, each with its
      options reordered by its own share of the draws. */
  method ShuffleQuestions(qs: seq<QuizController.QuestionView>, draws: seq<seq<Draw>>) returns (r: seq<QuizController.QuestionView>)
    requires |draws| == |qs|
    requires forall i :: 0 <= i < |qs| ==> |qs[i].options| <= |draws[i]|
    ensures |r| == |qs|
    ensures forall i :: 0 <= i < |qs| ==>
      r[i] == qs[i].(options := r[i].options) && multiset(r[i].options) == multiset(qs[i].options)
    ensures forall i :: 0 <= i < |qs| ==> r[i].options == Shuffled(qs[i].options, draws[i])
  {
    r := [];
    for i := 0 to |qs|
      invariant |r| == i
      invariant forall k :: 0 <= k < i ==> r[k] == qs[k].(options := Shuffled(qs[k].options, draws[k]))
    {
      var q := ShuffleOptions(qs[i], draws[i]);
      r := r + [q];
    }
  }

  /** `Math.round` on the elapsed seconds: halves round up. */
  function RoundSeconds(elapsedMs: int): int {
    ((elapsedMs as real / 1000.0) + 0.5).Floor
  }

  /** `Math.max(1, Math.round((Date.now() - startTime) / 1000))`: the
      elapsed time in whole seconds, nearest first, and never below 1. */
  function TimeSpent(startTime: int, now: int): (t: int)
    ensures t >= 1
    ensures t > 1 ==> t * 1000 - 500 <= now - startTime < t * 1000 + 500
    ensures now - startTime >= 1500 ==> t > 1
  {
    var secs := RoundSeconds(now - startTime);
    if secs > 1 then secs else 1
  }
}

=== FILE: topics.dfy ===
/** Topic reads and edits and the topic delete cascade
    (backend/controllers/topicController.js). */
module TopicController {
  import opened Common
  import opened Collections
  import opened Records
  import QuizController

  /** What `topic.save()` accepts: all three fields are required strings. */
  predicate TopicValid(t: Topic) {
    t.title != "" && t.description != "" && t.coverImage != ""
  }

  /** `getTopicById`. */
  function GetTopicById(db: Db, id: Id): (r: Result<Topic>)
    ensures r.Err? <==> forall k :: 0 <= k < |db.topics| ==> db.topics[k].id != id
    ensures r.Err? ==> r.error == NotFound
    ensures r.Ok? ==> r.value.id == id && r.value in db.topics
  {
    match FindTopic(db, id)
    case None => Err(NotFound)
    case Some(i) => Ok(db.topics[i])
  }

  /** `createTopic`: the body's three fields, stored as given under a fresh
      id; a missing or empty one fails validation. */
  function CreateTopic(db: Db, newId: Id, title: Option<string>, description: Option<string>, coverImage: Option<string>): (r: Result<Db>)
    requires FindTopic(db, newId).None?
    ensures r.Err? <==> Falsy(title) || Falsy(description) || Falsy(coverImage)
    ensures r.Err? ==> r.error == Internal
    ensures r.Ok? ==>
      r.value == db.(topics := db.topics + [Topic(newId, title.value, description.value, coverImage.value)])
  {
    if Falsy(title) || Falsy(description) || Falsy(coverImage) then Err(Internal)
    else Ok(db.(topics := db.topics + [Topic(newId, title.value, description.value, coverImage.value)]))
  }

  /** Reading a topic right after creating it gives back exactly the
      fields that were sent. */
  lemma CreateThenGet(db: Db, newId: Id, title: string, description: string, coverImage: string)
    requires FindTopic(db, newId).None?
    requires title != "" && description != "" && coverImage != ""
    ensures CreateTopic(db, newId, Some(title), Some(description), Some(coverImage)).Ok?
    ensures var db' := CreateTopic(db, newId, Some(title), Some(description), Some(coverImage)).value;
      GetTopicById(db', newId) == Ok(Topic(newId, title, description, coverImage))
  {
    var db' := CreateTopic(db, newId, Some(title), Some(description), Some(coverImage)).value;
    assert db'.topics[|db.topics|].id == newId;
    assert forall k :: 0 <= k < |db.topics| ==> db'.topics[k] == db.topics[k];
    assert FindTopic(db', newId) == Some(|db.topics|);
  }

  /** The three assignments of `updateTopic`. */
  function EditTopic(prev: Topic, title: Option<string>, description: Option<string>, coverImage: Option<string>): (t: Topic)
    ensures t.id == prev.id
    ensures TopicValid(prev) ==> TopicValid(t)
  {
    prev.(title := OrElse(title, prev.title), description := OrElse(description, prev.description),
          coverImage := OrElse(coverImage, prev.coverImage))
  }

  /** `updateTopic`: a falsy incoming field keeps the stored value. */
  function UpdateTopic(db: Db, id: Id, title: Option<string>, description: Option<string>, coverImage: Option<string>): (r: Result<Db>)
    ensures r == Err(NotFound) <==> FindTopic(db, id).None?
    ensures r.Err? && r.error != NotFound ==> r.error == Internal
    ensures FindTopic(db, id).Some? && TopicValid(db.topics[FindTopic(db, id).value]) ==> r.Ok?
    ensures r.Ok? ==>
      FindTopic(db, id).Some? &&
      var i := FindTopic(db, id).value;
      var prev := db.topics[i];
      |r.value.topics| == |db.topics| &&
      var t := r.value.topics[i];
      r.value == db.(topics := db.topics[i := t]) &&
      t.id == id &&
      (if Falsy(title) then t.title == prev.title else Some(t.title) == title) &&
      (if Falsy(description) then t.description == prev.description else Some(t.description) == description) &&
      (if Falsy(coverImage) then t.coverImage == prev.coverImage else Some(t.coverImage) == coverImage)
  {
    match FindTopic(db, id)
    case None => Err(NotFound)
    case Some(i) =>
      var t := EditTopic(db.topics[i], title, description, coverImage);
      if TopicValid(t) then Ok(db.(topics := db.topics[i := t])) else Err(Internal)
  }

  /** Sending the same update twice changes nothing the first did not. */
  lemma UpdateTopicIdempotent(db: Db, id: Id, title: Option<string>, description: Option<string>, coverImage: Option<string>)
    requires UpdateTopic(db, id, title, description, coverImage).Ok?
    ensures var db' := UpdateTopic(db, id, title, description, coverImage).value;
      UpdateTopic(db', id, title, description, coverImage) == Ok(db')
  {
    var i := FindTopic(db, id).value;
    var t := EditTopic(db.topics[i], title, description, coverImage);
    var db' := db.(topics := db.topics[i := t]);
    assert UpdateTopic(db, id, title, description, coverImage) == Ok(db');
    FindFirstSame(db.topics, db'.topics, (x: Topic) => x.id == id);
    assert EditTopic(t, title, description, coverImage) == t;
    assert db'.topics[i := t] == db'.topics;
  }

  /** `deleteTopic`: removes the topic and every quiz filed under it.
      Lessons and progress records are left alone. */
  function DeleteTopic(db: Db, id: Id): (r: Result<Db>)
    ensures r.Err? <==> FindTopic(db, id).None?
    ensures r.Err? ==> r.error == NotFound
    ensures r.Ok? ==>
      FindTopic(db, id).Some? &&
      r.value.topics == RemoveAt(db.topics, FindTopic(db, id).value) &&
      (forall q :: q in r.value.quizzes <==> q in db.quizzes && q.topic != id) &&
      r.value.lessons == db.lessons && r.value.progress == db.progress &&
      r.value.rewards == db.rewards && r.value.grants == db.grants
  {
    match FindTopic(db, id)
    case None => Err(NotFound)
    case Some(i) =>
      Ok(db.(quizzes := RemoveWhere(db.quizzes, (q: Quiz) => q.topic == id), topics := RemoveAt(db.topics, i)))
  }

  /** Once a topic is deleted it has no quizzes, so its completion reward
      can no longer be earned, while its lessons stay in place. */
  lemma DeleteTopicEndsCompletion(db: Db, id: Id, student: Id)
    requires DeleteTopic(db, id).Ok?
    ensures var db' := DeleteTopic(db, id).value;
      QuizController.QuizzesInTopic(db'.quizzes, id) == 0 &&
      !QuizController.TopicRuleFires(db', student, id) &&
      forall l :: l in db.lessons && l.topic == id ==> l in db'.lessons
  {
    var db' := DeleteTopic(db, id).value;
    FilterNone(db'.quizzes, (q: Quiz) => q.topic == id);
  }
}

=== FILE: users.dfy ===
/** Registration, login and code-based linking
    (backend/controllers/userController.js). Password hashing and comparison
    are foreign calls taken as parameters: `hash` stands for the pre-save
    bcrypt hook, `matches(entered, stored)` for `bcrypt.compare`. */
module UserController {
  import opened Common
  import opened Collections
  import opened Accounts
  import opened Auth

  /** The 201 reply of `registerUser`: the session fields (with a token
      issued for `id`) for an active account, the "awaiting approval"
      message otherwise. */
  datatype Registered =
    | Session(id: Id, name: string, role: Role)
    | AwaitingApproval

  /** The duplicate check of `registerUser`: an account already has this
      email, or already has this username. */
  predicate HandleTaken(users: Users, email: string, username: string) {
    exists i :: 0 <= i < |users| && (users[i].email == Canon(email) || users[i].username == Canon(username))
  }

  /** `User.create` fails the schema's `required` validators: a name or
      password that is empty, or a username or email that is empty once
      the `lowercase` and `trim` setters have run. */
  predicate MissingRequired(name: string, username: string, email: string, password: string) {
    name == "" || Canon(username) == "" || Canon(email) == "" || password == ""
  }

  /** The account `registerUser` creates. A body without `role` fails the
      `role === 'student'` test and then takes the schema default
      `student`. `code` is the generated code, used for students only. */
  function NewAccount(newId: Id, name: string, username: string, email: string, password: string,
                      role: Option<Role>, hash: string -> string, code: string): Account
  {
    var stored := if role.None? then Student else role.value;
    if role == Some(Student) then
      Account(newId, name, Canon(username), Canon(email), hash(password), Student, Active, None, Some(code), [])
    else
      Account(newId, name, Canon(username), Canon(email), hash(password), stored, Pending, None, None, [])
  }

  /** `registerUser` once the code generator has produced `code`. The
      duplicate check comes first; the validators run in `User.create`. */
  function Register(users: Users, newId: Id, name: string, username: string, email: string,
                    password: string, role: Option<Role>, hash: string -> string, code: string)
    : (r: Result<(Registered, Users)>)
    ensures HandleTaken(users, email, username) <==> r == Err(BadRequest)
    ensures !HandleTaken(users, email, username) && MissingRequired(name, username, email, password)
      <==> r == Err(Internal)
    ensures r.Ok? <==> !HandleTaken(users, email, username) && !MissingRequired(name, username, email, password)
    ensures r.Ok? ==> |r.value.1| == |users| + 1 && r.value.1[..|users|] == users
    ensures r.Ok? ==>
      var a := r.value.1[|users|];
      a.id == newId && a.name == name && a.username == Canon(username) && a.email == Canon(email)
      && a.password == hash(password) && a.approvedBy == None && a.children == []
    ensures r.Ok? && role == Some(Student) ==>
      var a := r.value.1[|users|];
      a.role == Student && a.status == Active && a.studentCode == Some(code)
    ensures r.Ok? && role != Some(Student) ==>
      var a := r.value.1[|users|];
      a.status == Pending && a.studentCode == None
      && (role.Some? ==> a.role == role.value) && (role.None? ==> a.role == Student)
    ensures r.Ok? ==> (r.value.0.Session? <==> r.value.1[|users|].status == Active)
    ensures r.Ok? && r.value.0.Session? ==> r.value.0 == Session(newId, name, Student)
  {
    if HandleTaken(users, email, username) then Err(BadRequest)
    else if MissingRequired(name, username, email, password) then Err(Internal)
    else
      var a := NewAccount(newId, name, username, email, password, role, hash, code);
      var users' := users + [a];
      assert users'[..|users|] == users;
      if a.status == Active then Ok((Session(a.id, a.name, a.role), users'))
      else Ok((AwaitingApproval, users'))
  }

  /** Registration keeps every index satisfied: a fresh id, handles that
      passed the duplicate check, and a code no account holds. */
  lemma RegisterKeepsValid(users: Users, newId: Id, name: string, username: string, email: string,
                           password: string, role: Option<Role>, hash: string -> string, code: string)
    requires Valid(users) && FindById(users, newId).None?
    requires role == Some(Student) ==> code !in HeldCodes(users)
    ensures var r := Register(users, newId, name, username, email, password, role, hash, code);
      r.Ok? ==> Valid(r.value.1)
  {
    if Register(users, newId, name, username, email, password, role, hash, code).Err? {
      return;
    }
    var a := NewAccount(newId, name, username, email, password, role, hash, code);
    forall i | 0 <= i < |users|
      ensures users[i].id != a.id && users[i].username != a.username && users[i].email != a.email
    {
    }
    ValidAppend(users, a);
  }

  /** The `do { code = generateStudentCode() } while (await
      User.findOne({ studentCode: code }))` loop. `gen(k)` is the k-th code
      drawn; the loop ends because draw `bound` is free. */
  method GenerateStudentCode(users: Users, gen: nat -> string, ghost bound: nat)
    returns (code: string, attempts: nat)
    requires gen(bound) !in HeldCodes(users)
    ensures code == gen(attempts) && code !in HeldCodes(users)
    ensures forall k :: 0 <= k < attempts ==> gen(k) in HeldCodes(users)
    ensures attempts <= bound
  {
    var held := HeldCodes(users);
    attempts := 0;
    code := gen(0);
    while code in held
      invariant attempts <= bound
      invariant code == gen(attempts)
      invariant forall k :: 0 <= k < attempts ==> gen(k) in held
      decreases bound - attempts
    {
      attempts := attempts + 1;
      code := gen(attempts);
    }
  }

  /** `registerUser` end to end: students draw codes until one is free. */
  method RegisterUser(users: Users, newId: Id, name: string, username: string, email: string,
                      password: string, role: Option<Role>, hash: string -> string,
                      gen: nat -> string, ghost bound: nat)
    returns (r: Result<Registered>, users': Users)
    requires role == Some(Student) ==> gen(bound) !in HeldCodes(users)
    ensures HandleTaken(users, email, username) <==> r == Err(BadRequest)
    ensures !HandleTaken(users, email, username) && MissingRequired(name, username, email, password)
      <==> r == Err(Internal)
    ensures r.Ok? <==> !HandleTaken(users, email, username) && !MissingRequired(name, username, email, password)
    ensures r.Err? ==> users' == users
    ensures r.Ok? ==> |users'| == |users| + 1 && users'[..|users|] == users
    ensures r.Ok? && role == Some(Student) ==>
      users'[|users|].status == Active && users'[|users|].studentCode.Some?
      && users'[|users|].studentCode.value !in HeldCodes(users)
    ensures r.Ok? && role != Some(Student) ==>
      users'[|users|].status == Pending && users'[|users|].studentCode == None
      && users'[|users|].role == (if role.None? then Student else role.value)
    ensures r.Ok? ==> (r.value.Session? <==> role == Some(Student))
    ensures Valid(users) && FindById(users, newId).None? ==> Valid(users')
  {
    var code := "";
    if role == Some(Student) {
      var attempts;
      code, attempts := GenerateStudentCode(users, gen, bound);
    }
    var res := Register(users, newId, name, username, email, password, role, hash, code);
    match res {
      case Err(e) =>
        r, users' := Err(e), users;
      case Ok((reply, after)) =>
        if Valid(users) && FindById(users, newId).None? && (role == Some(Student) ==> code !in HeldCodes(users)) {
          RegisterKeepsValid(users, newId, name, username, email, password, role, hash, code);
        }
        r, users' := Ok(reply), after;
    }
  }

  // ---------------------------------------------------------------------
  // `loginUser`

  /** Every failure is a 401; the three reasons carry different messages. */
  datatype LoginOutcome =
    | LoggedIn(account: Account)   // profile plus a token issued for its id
    | InvalidCredentials
    | NotYetApproved
    | RegistrationRejected

  /** `User.findOne({ $or: [{ email: login }, { username: login }] })`. */
  function FindByLogin(users: Users, login: string): Option<nat> {
    FindFirst(users, (a: Account) => a.email == Canon(login) || a.username == Canon(login))
  }

  function LoginUser(users: Users, login: string, password: string,
                     matches: (string, string) -> bool): (r: LoginOutcome)
    ensures FindByLogin(users, login).None? ==> r == InvalidCredentials
    ensures FindByLogin(users, login).Some? ==>
      var a := users[FindByLogin(users, login).value];
      (!matches(password, a.password) ==> r == InvalidCredentials)
      && (matches(password, a.password) ==>
            (a.status == Pending ==> r == NotYetApproved)
            && (a.status == Rejected ==> r == RegistrationRejected)
            && (a.status == Active ==> r == LoggedIn(a)))
    ensures r.LoggedIn? ==> r.account in users && r.account.status == Active
                            && matches(password, r.account.password)
  {
    match FindByLogin(users, login)
    case None => InvalidCredentials
    case Some(i) =>
      var a := users[i];
      if !matches(password, a.password) then InvalidCredentials
      else if a.status == Pending then NotYetApproved
      else if a.status == Rejected then RegistrationRejected
      else LoggedIn(a)
  }

  /** A fresh registration can log in with its own username at once exactly
      when it registered as a student; every other role is told to wait.
      (An older account whose email equals the new username would be found
      first, so the lemma excludes that case.) */
  lemma RegisterThenLogin(users: Users, newId: Id, name: string, username: string, email: string,
                          password: string, role: Option<Role>, hash: string -> string, code: string,
                          matches: (string, string) -> bool)
    requires forall j :: 0 <= j < |users| ==> users[j].email != Canon(username)
    requires matches(password, hash(password))
    ensures var r := Register(users, newId, name, username, email, password, role, hash, code);
      r.Ok? ==>
      var users' := r.value.1;
      var outcome := LoginUser(users', username, password, matches);
      (role == Some(Student) ==> outcome == LoggedIn(users'[|users|]))
      && (role != Some(Student) ==> outcome == NotYetApproved)
  {
    if Register(users, newId, name, username, email, password, role, hash, code).Err? {
      return;
    }
    var users' := Register(users, newId, name, username, email, password, role, hash, code).value.1;
    var p := (a: Account) => a.email == Canon(username) || a.username == Canon(username);
    forall j | 0 <= j < |users|
      ensures !p(users'[j])
    {
      assert users'[j] == users[j];
      assert !(users[j].email == Canon(email) || users[j].username == Canon(username));
    }
    assert p(users'[|users|]);
    assert FindFirst(users', p) == Some(|users|);
  }

  // ---------------------------------------------------------------------
  // `linkStudent`

  /** Links the student holding `code` to the caller. The student lookup
      comes first; a caller that no longer resolves is dereferenced
      (`parent.children`) and fails. */
  function LinkStudent(users: Users, callerId: Id, code: string): (r: Result<Users>)
    ensures code !in HeldCodes(users) <==> r == Err(NotFound)
    ensures r.Ok? ==>
      FindById(users, callerId).Some? && FindFirst(users, (a: Account) => a.studentCode == Some(code)).Some? &&
      var c := FindById(users, callerId).value;
      var s := FindFirst(users, (a: Account) => a.studentCode == Some(code)).value;
      users[s].id !in users[c].children
      && r.value == users[c := users[c].(children := users[c].children + [users[s].id])]
    ensures r == Err(BadRequest) ==>
      FindById(users, callerId).Some?
      && exists s :: 0 <= s < |users| && users[s].studentCode == Some(code)
                     && users[s].id in users[FindById(users, callerId).value].children
    ensures code in HeldCodes(users) && FindById(users, callerId).None? ==> r == Err(Internal)
    ensures FindById(users, callerId).Some? && FindFirst(users, (a: Account) => a.studentCode == Some(code)).Some? ==>
      var c := FindById(users, callerId).value;
      var s := FindFirst(users, (a: Account) => a.studentCode == Some(code)).value;
      (r == Err(BadRequest) <==> users[s].id in users[c].children)
      && (r.Ok? <==> users[s].id !in users[c].children)
    ensures r.Ok? && Valid(users) ==> Valid(r.value)
  {
    match FindFirst(users, (a: Account) => a.studentCode == Some(code))
    case None =>
      assert forall k :: 0 <= k < |users| ==> users[k].studentCode != Some(code);
      assert forall a :: a in users ==> a.studentCode != Some(code);
      Err(NotFound)
    case Some(s) =>
      assert users[s] in users;
      match FindById(users, callerId)
      case None => Err(Internal)
      case Some(c) =>
        var parent := users[c];
        if users[s].id in parent.children then Err(BadRequest)
        else
          var updated := parent.(children := parent.children + [users[s].id]);
          ValidUpdate(users, c, updated);
          Ok(users[c := updated])
  }

  /** A successful link appends exactly one entry, and only a student can
      hold a code, so the linked account is a student. Repeating the same
      link is refused with 400 and changes nothing. */
  lemma LinkStudentOnceOnly(users: Users, callerId: Id, code: string)
    requires Valid(users)
    requires LinkStudent(users, callerId, code).Ok?
    ensures var users' := LinkStudent(users, callerId, code).value;
      var c := FindById(users, callerId).value;
      var s := FindFirst(users, (a: Account) => a.studentCode == Some(code)).value;
      users[s].role == Student
      && |users'[c].children| == |users[c].children| + 1
      && LinkStudent(users', callerId, code) == Err(BadRequest)
  {
    var users' := LinkStudent(users, callerId, code).value;
    var c := FindById(users, callerId).value;
    var p := (a: Account) => a.studentCode == Some(code);
    var s := FindFirst(users, p).value;
    assert forall j :: 0 <= j < |users| ==> p(users'[j]) == p(users[j]);
    assert FindFirst(users', p) == FindFirst(users, p) by {
      FindFirstSame(users, users', p);
    }
    var q := (a: Account) => a.id == callerId;
    assert forall j :: 0 <= j < |users| ==> q(users'[j]) == q(users[j]);
    FindFirstSame(users, users', q);
    assert users'[s].id == users[s].id;
    assert users[s].id in users'[c].children;
  }

  /** `POST /api/users/link` behind `protect` and `parentOrTeacher`: only
      an authenticated parent, teacher or admin reaches the controller. */
  function LinkStudentRoute(auth: Authentication, users: Users, code: string): (r: Result<Users>)
    ensures r.Ok? ==> auth.Authenticated? && auth.user.Some?
                      && auth.user.value.role in {Parent, Teacher, Admin}
    ensures auth.Authenticated? && auth.user.Some? && auth.user.value.role == Student ==> r == Err(Forbidden)
    ensures r == Err(Unauthorized) <==> !auth.Authenticated?
    ensures auth.Authenticated? && auth.user.Some? && auth.user.value.role in Admits(ParentOrTeacher) ==>
      r == LinkStudent(users, auth.user.value.id, code)
  {
    match Authorize(auth, ParentOrTeacher)
    case Err(e) => Err(e)
    case Ok(actor) =>
      assert actor.role != Student;
      LinkStudent(users, actor.id, code)
  }
}
